=== FILE: README.md ===
# Expense tracker: the expenses index, export and category backfill in Dafny

This project models the core of a small Rails expense tracker. Each expense
has an amount, a category, a date and a description.

- **Store.** The `ExpensesController` creates, finds, updates and destroys
  expenses. The `expenses` table is a map from id to record with an
  auto-increment counter.
- **Index.** The `index` action reads optional `start_date` / `end_date`
  parameters, keeps the expenses dated inside that inclusive range, and lists
  them newest first. From that list it builds the pie-chart series: one label
  per category, the number of expenses in it and their summed amount.
- **CSV export.** In CSV format the same list becomes a document with the
  header `Date,Category,Amount,Description` and one row per expense. The
  download's file name describes the range.
- **Backfill migration.** A one-shot migration turns the old free-text
  `expenses.category` column into `categories` rows referenced by
  `expenses.category_id`. Blank strings go to an "Uncategorized" fallback.
  Its `down` reverses this.

Modules, one per file:

| file | module | what it holds |
|---|---|---|
| `wrappers.dfy` | `Wrappers` | `Option` and `Result` with failure propagation |
| `digits.dfy` | `Digits` | decimal digit strings: rendering, zero padding, reading back |
| `dates.dfy` | `Dates` | calendar dates, `strftime("%Y-%m-%d")` and its strict inverse |
| `request_params.dfy` | `RequestParams` | `present?` on a parameter and reading a date bound |
| `records.dfy` | `Records` | `Category` and `Expense` records and the category lookup |
| `expense_store.dfy` | `ExpenseStore` | the table with create, find, update and destroy |
| `date_filter.dfy` | `DateFilter` | the range filter and the newest-first ordering |
| `chart.dfy` | `Chart` | `prepare_chart_data` and its reference definitions |
| `csv_export.dfy` | `CsvExport` | CSV rows, amount rendering and the file name |
| `expenses_index.dfy` | `ExpensesIndex` | the `index` action from raw parameters to page or CSV file |
| `category_migration.dfy` | `CategoryMigration` | `up` as written, `up` corrected, and `down` |
| `category_migration.dfy` | `CategoryMigrationProofs` | properties of the backfill and its reversal |

Numeric and date conventions:

- Amounts are whole hundredths (cents), held as `int`.
- Dates are `Date(year, month, day)`, ordered lexicographically.
- `Date.current` is the `today` parameter of the file-name function.

## Model

| member | source | states |
|---|---|---|
| Dates.FormatThenParse | app/controllers/expenses_controller.rb:126 | a valid date with a four-digit year, written as `%Y-%m-%d`, reads back as the same date |
| Dates.ParseThenFormat | app/controllers/expenses_controller.rb:9-15 | text accepted as a date is exactly the canonical `YYYY-MM-DD` text of the date it denotes |
| Digits.PadLeftCanonical | app/controllers/expenses_controller.rb:126 | a fixed-width digit field is the zero-padded rendering of the number it denotes |
| RequestParams.ParseBound | app/controllers/expenses_controller.rb:9-15 | "no bound" exactly when the parameter is nil, empty or whitespace; a present non-date fails with `MalformedDate` carrying the text; a parsed bound is a valid date whose canonical text is the parameter |
| RequestParams.AbsentOrEmptyIsNoBound | app/controllers/expenses_controller.rb:9-15 | a missing parameter and an empty string both impose no bound |
| ExpenseStore.Create | app/controllers/expenses_controller.rb:47-58 | the new record takes the auto-increment counter's value, an id above every id ever handed out, and the counter advances; the table gains exactly that one row; every other row is unchanged |
| ExpenseStore.CreateThenFind | app/controllers/expenses_controller.rb:47-58 | looking the created expense up by its id returns the submitted fields |
| ExpenseStore.Find | app/controllers/expenses_controller.rb:86-88 | succeeds exactly when the id is stored, with that row; otherwise `RecordNotFound` for that id |
| ExpenseStore.Update | app/controllers/expenses_controller.rb:62-72 | a missing id fails with `RecordNotFound` (the lookup runs first); a stored id with no permitted attribute fails with `ParameterMissing`; otherwise the set of ids, the counter and every other row are unchanged |
| ExpenseStore.UpdateThenFind | app/controllers/expenses_controller.rb:62-72 | an update giving at least one attribute succeeds, and the record read back keeps its id, carries every attribute the request gave and keeps its old value for every attribute it omitted |
| ExpenseStore.UpdateAllOrNothing | app/controllers/expenses_controller.rb:91-93 | an update giving all four permitted attributes stores exactly those; one giving none is rejected with `ParameterMissing` |
| ExpenseStore.Destroy | app/controllers/expenses_controller.rb:75-82 | removes exactly the targeted row (one fewer row, all others unchanged); a missing id is `RecordNotFound` |
| ExpenseStore.DestroyThenFind | app/controllers/expenses_controller.rb:75-82 | a destroyed expense can no longer be found, and destroying it again fails |
| ExpenseStore.Rows | app/controllers/expenses_controller.rb:6 | lists every stored expense, and only those, in increasing id order |
| DateFilter.Filter | app/controllers/expenses_controller.rb:9-15 | keeps exactly the expenses inside the range, each as often as in the input |
| DateFilter.SortNewestFirst | app/controllers/expenses_controller.rb:17 | the result is dated newest first and is a permutation of the input |
| DateFilter.FilterAndOrder | app/controllers/expenses_controller.rb:9-17 | the result is newest first and is a permutation of the in-range part of the input |
| DateFilter.NoBoundsKeepsAll | app/controllers/expenses_controller.rb:9-17 | without bounds the list is the whole collection, reordered |
| DateFilter.BoundsInclusive | app/controllers/expenses_controller.rb:9-15 | an expense dated exactly on the lower or the upper bound is kept whenever the other bound admits its date, and a one-day range keeps the expenses of that day |
| DateFilter.WiderRangeKeepsMore | app/controllers/expenses_controller.rb:9-15 | moving the lower bound earlier, the upper bound later, or dropping either never drops an expense |
| ExpensesIndex.Filtered | app/controllers/expenses_controller.rb:5-17 | fails exactly when a bound is malformed; otherwise lists newest first exactly the stored expenses admitted by both parameters, each once |
| ExpensesIndex.NoFilterListsEverything | app/controllers/expenses_controller.rb:5-17 | with absent or empty parameters every stored expense is listed exactly once |
| ExpensesIndex.Index | app/controllers/expenses_controller.rb:5-24 | the page lists exactly the filtered expenses, each once; its chart is `prepare_chart_data` of that list: three series of equal length whose labels are exactly the categories occurring in the list, with count i and amount i belonging to label i, totalling the list's categorised expenses |
| ExpensesIndex.ExportList | app/controllers/expenses_controller.rb:113-138 | succeeds exactly when every listed expense has a category, with the given name and the CSV rows of the list; otherwise names the first expense without one |
| ExpensesIndex.ExportCsv | app/controllers/expenses_controller.rb:26-30 | a malformed bound fails the request; otherwise the download succeeds exactly when every listed expense has a category, its rows are the CSV rows of the filtered list (header, then row i+1 for expense i), and a failure names the first listed expense without a category |
| Chart.Aggregate | app/controllers/expenses_controller.rb:98-99 | one bucket per category name that occurs; each bucket's count is that category's number of expenses (at least one) and its amount their sum |
| Chart.AggregateTotals | app/controllers/expenses_controller.rb:98-99 | the bucket counts add up to the number of expenses with a category, and the amounts to those expenses' total |
| Chart.AggregateFirstSeenOrder | app/controllers/expenses_controller.rb:102 | buckets appear in the order in which their categories first occur in the list |
| Chart.PrepareChartData | app/controllers/expenses_controller.rb:96-110 | three aligned series: distinct labels naming exactly the occurring categories in first-seen order, each with its count and summed amount; the series total the categorised expenses |
| Chart.ChartCoversCollection | app/controllers/expenses_controller.rb:96-110 | when every expense has its category, the counts add up to the list's length and the amounts to its total; an empty list gives three empty series |
| CsvExport.FormatThenParseAmount | app/controllers/expenses_controller.rb:128 | every amount rendered as `to_f` text reads back as the same number of hundredths |
| CsvExport.ExpenseRowReadsBack | app/controllers/expenses_controller.rb:125-130 | a data row reads back as the expense's date, category name, amount and description |
| CsvExport.DataRows | app/controllers/expenses_controller.rb:124-131 | succeeds exactly when every expense has a category; a failure names the first expense without one; row i is expense i's row |
| CsvExport.CsvRows | app/controllers/expenses_controller.rb:119-132 | the header row followed by one row per expense, in list order |
| CsvExport.CsvReadsBack | app/controllers/expenses_controller.rb:119-131 | reading the document back recovers every listed expense's fields, row for row |
| CsvExport.Filename | app/controllers/expenses_controller.rb:141-153 | every name starts `expenses_` and ends `.csv` |
| CsvExport.FilenameOfParsedBounds | app/controllers/expenses_controller.rb:141-153 | the name describes the range the list was filtered by: both dates, `from` the lower, `until` the upper, or today's date |
| CsvExport.FilenameCarriesToday | app/controllers/expenses_controller.rb:150-151 | without bounds the name is 23 characters and its date part reads back as today |
| CategoryMigration.DistinctNonBlank | db/migrate/20251024091345_migrate_category_string_to_model.rb:4 | the distinct non-blank strings, each once, exactly those the expenses carry |
| CategoryMigration.AsTable | db/migrate/20251024091345_migrate_category_string_to_model.rb:27 | the table keyed by id as a primary-key lookup sees it: an id is a key exactly when `find` by id succeeds, and it holds the row `find` returns |
| CategoryMigration.AsTableHoldsEveryRow | db/migrate/20251024091345_migrate_category_string_to_model.rb:27 | with ids unique, every category row sits in that table under its own id |
| CategoryMigration.FindOrCreateByName | db/migrate/20251024091345_migrate_category_string_to_model.rb:8 | afterwards a category of that name exists; existing rows are untouched; a new row takes a fresh id; names and ids stay unique |
| CategoryMigration.CreateAll | db/migrate/20251024091345_migrate_category_string_to_model.rb:7-9 | the names afterwards are the old names plus every string; existing rows are untouched; names and ids stay unique |
| CategoryMigration.LinkAll | db/migrate/20251024091345_migrate_category_string_to_model.rb:12-21 | only `category_id` changes; a non-blank expense points at the category of its name; a blank one points at the fallback |
| CategoryMigration.FallbackCorrected | db/migrate/20251024091345_migrate_category_string_to_model.rb:17-22 | with blank expenses an "Uncategorized" category exists afterwards and its id is handed out; the table stays unique; without blank ones nothing changes |
| CategoryMigration.Down | db/migrate/20251024091345_migrate_category_string_to_model.rb:25-36 | no categories remain and no expense keeps a reference; a linked expense gets its category's name back; an unlinked one keeps its string; nothing else changes |
| CategoryMigrationProofs.UpKeepsTableInvariant | db/migrate/20251024091345_migrate_category_string_to_model.rb:2-23 | after the corrected `up`, hence after any `up` that succeeds, category names and ids are still unique and below the id counter |
| CategoryMigrationProofs.UpKeepsExistingCategories | db/migrate/20251024091345_migrate_category_string_to_model.rb:2-23 | the corrected `up`, hence any `up` that succeeds, keeps every category that existed before, in place |
| CategoryMigrationProofs.UpCategoryNames | db/migrate/20251024091345_migrate_category_string_to_model.rb:2-23 | the names after the corrected `up`, hence after any `up` that succeeds, are the old names, every non-blank string, and "Uncategorized" exactly when some expense is blank |
| CategoryMigrationProofs.NoBlankNoFallback | db/migrate/20251024091345_migrate_category_string_to_model.rb:17-22 | without a blank expense, and with "Uncategorized" neither an existing category nor an expense's string, the corrected `up`, hence any `up` that succeeds, creates no "Uncategorized" category |
| CategoryMigrationProofs.UpOnlyLinks | db/migrate/20251024091345_migrate_category_string_to_model.rb:12-21 | the corrected `up`, hence any `up` that succeeds, writes `category_id` and nothing else of an expense |
| CategoryMigrationProofs.UpLinksNamed | db/migrate/20251024091345_migrate_category_string_to_model.rb:12-15 | after the corrected `up`, hence after any `up` that succeeds, every expense with a non-blank string is linked to a category of exactly that name |
| CategoryMigrationProofs.UpLinksBlank | db/migrate/20251024091345_migrate_category_string_to_model.rb:18-21 | after the corrected `up`, hence after any `up` that succeeds, every expense whose string is nil or empty is linked to "Uncategorized" |
| CategoryMigrationProofs.UpResolvesEveryExpense | db/migrate/20251024091345_migrate_category_string_to_model.rb:2-23 | after the corrected `up`, hence after any `up` that succeeds, every expense's `category_id` is set and resolves in the table the controller reads |
| CategoryMigrationProofs.DownAfterUp | db/migrate/20251024091345_migrate_category_string_to_model.rb:2-36 | `down` after the corrected `up`, hence after any `up` that succeeds, gives every expense back its string (blank ones now read "Uncategorized") and leaves no reference and no category |
| CategoryMigrationProofs.UpAgreesWithCorrected | db/migrate/20251024091345_migrate_category_string_to_model.rb:20 | whenever `up` as written succeeds, its result is the corrected `up`'s |
| CategoryMigrationProofs.UpFailsExactlyWhen | db/migrate/20251024091345_migrate_category_string_to_model.rb:20 | `up` as written fails exactly when some expense is blank, "Uncategorized" already exists or is named by an expense, and no existing category has that name with the default description |
| CategoryMigrationProofs.UpRejectsLegacyUncategorized | db/migrate/20251024091345_migrate_category_string_to_model.rb:20 | on a table with an expense filed under "Uncategorized" and one with an empty string, `up` as written breaks the unique name index |
| CategoryMigrationProofs.UpCorrectedSharesUncategorized | db/migrate/20251024091345_migrate_category_string_to_model.rb:20-21 | on that table the corrected `up` files both expenses under the one "Uncategorized" category |

## Left out

- HTTP: `respond_to`, redirects, flash notices, status codes, JSON rendering and `send_data` are not modelled. The model returns the data these would carry: the page, the rows and the file name, or the error.
- Validations: the Expense and Category models' validations are not part of this model. A failed `save` or `update` (the `unprocessable_entity` branches) is therefore not modelled. Every well-typed record is accepted.
- `Date.current`: the clock is the `today` parameter of `CsvExport.Filename`.
- Malformed date parameters: the controller hands a present `start_date` / `end_date` to the database as is. The model reads it as a canonical `YYYY-MM-DD` date and rejects anything else with `MalformedDate`. What the database would make of other text is outside the model.
- CsvExport.FormatAmount: `amount.to_f` is modelled as exact decimal text in hundredths, such as `12.5`, `45.0` or `12.34`. Floating-point rounding, exponent notation for very large amounts, and the decimal column's precision are not modelled.
- CSV quoting: the document is a sequence of rows of fields. Byte-level quoting and escaping are the CSV library's business.
- Chart: the series follow the code's inner join (`joins(:category)`), so expenses whose category does not resolve are silently left out of the chart. The CSV export raises on such an expense instead, modelled as `MissingCategory`.
- Chart label order: grouped SQL results come in an order the database chooses. The model fixes first appearance in the newest-first list.
- `amount_data.map(&:to_f)` is not modelled; sums stay in hundredths. The JavaScript chart controller is not part of this model.
- Descriptions: an expense's `nil` description is modelled as a string and written to the CSV as given.
- `show`, `new` and `edit` have no logic beyond loading a record. They appear only as `Find`. `expense_params` appears as `Fields` on create and as `Changes` on update, where an omitted key is `None` and a request with none of the four keys is `ParameterMissing`.
- ExpenseStore.Create: takes all four attributes and cannot fail. A create request carrying none of the four keys raises `ParameterMissing` in `params.expect` (line 92) before `Expense.new` runs; `Create` does not express that failure. A request carrying only some keys would leave the others nil, and what the Expense model's validations make of that is not part of this model.
- Migration schema: the migrations that create the tables, add `category_id` and remove the string column are not part of this model. Only the data the backfill reads and writes is modelled. The `categories` table's unique index on `name` is assumed; the schema file is not part of this model.
- CategoryMigration.Up: reads `expense.category` at lines 4, 12-13 and 18 as the old string column. This assumes `up` runs with an Expense class that has no `category` association. Under the app's `belongs_to :category`, the association would shadow the column and `where(category: …)` would filter on `category_id`. The Expense model is not part of this model.
- CategoryMigration.DistinctNonBlank: `distinct.pluck(:category)` returns the strings in an order the database chooses. The model fixes first appearance in primary-key order, and that order decides which ids new categories receive.
- Migration failure: a failed `up` leaves no partial state in the model. The failure is reported as `Failure(DuplicateCategoryName)` instead of a raised `RecordNotUnique` mid-migration.

## Findings

| source | as written | input that shows it | evidently intended | confidence | as-written member | corrected member |
|---|---|---|---|---|---|---|
| db/migrate/20251024091345_migrate_category_string_to_model.rb:20 | the fallback is looked up by name and description together, so an existing "Uncategorized" without the default description is not found, and a second "Uncategorized" row is inserted against the unique name index | two legacy expenses, one with category "Uncategorized" and one with "", and no categories: line 8 creates "Uncategorized" with no description, then line 20 looks for name plus description, finds none, and inserts a duplicate name | look the fallback up by name and set the description only when creating it, so blank expenses share the existing "Uncategorized" | medium, not executed (depends on the unique index on `categories.name`, on the absence of a uniqueness validation, and on `expense.category` reading the string column) | CategoryMigrationProofs.UpRejectsLegacyUncategorized | CategoryMigrationProofs.UpCorrectedSharesUncategorized |

=== FILE: category_migration.dfy ===
/**
 The one-shot backfill that turns the old free-text `expenses.category`
 column into `categories` rows referenced by `expenses.category_id`, and
 its reversal. Rows are listed in primary-key order, which is the order
 `find_each` visits them and the order categories receive their ids.
 */
module CategoryMigration {
  import opened Wrappers
  import opened Dates
  import opened Records

  const UncategorizedName: string := "Uncategorized"
  const UncategorizedDescription: string := "Default category for expenses without a specified category"

  /** An `expenses` row while both the string column and the reference exist. */
  datatype LegacyExpense = LegacyExpense(
    id: nat, amount: int, category: Option<string>, categoryId: Option<nat>, date: Date, description: string)

  /** The two tables; `nextCategoryId` is the auto-increment counter of `categories`. */
  datatype Db = Db(expenses: seq<LegacyExpense>, categories: seq<Category>, nextCategoryId: nat)

  /** Inserting a second category of an existing name violates the unique index on `categories.name`. */
  datatype MigrationError = DuplicateCategoryName(name: string)

  /** `category: [nil, ""]`: the migration's notion of blank is nil or the empty string only. */
  predicate BlankCategory(c: Option<string>) {
    c.None? || c.value == ""
  }

  function Names(cats: seq<Category>): set<string> {
    set c | c in cats :: c.name
  }

  predicate NamesDistinct(cats: seq<Category>) {
    forall i, j :: 0 <= i < j < |cats| ==> cats[i].name != cats[j].name
  }

  predicate IdsDistinct(cats: seq<Category>) {
    forall i, j :: 0 <= i < j < |cats| ==> cats[i].id != cats[j].id
  }

  /** The `categories` table as its unique indexes and its id counter keep it. */
  predicate TableInvariant(cats: seq<Category>, next: nat) {
    NamesDistinct(cats) && IdsDistinct(cats) && forall i :: 0 <= i < |cats| ==> cats[i].id < next
  }

  /** The distinct non-blank category strings of the expenses. */
  function NonBlankStrings(xs: seq<LegacyExpense>): set<string> {
    set i | 0 <= i < |xs| && !BlankCategory(xs[i].category) :: xs[i].category.value
  }

  predicate HasBlank(xs: seq<LegacyExpense>) {
    exists i :: 0 <= i < |xs| && BlankCategory(xs[i].category)
  }

  /** `Category.find_by(name:)`: the first category of that name. */
  function FindByName(cats: seq<Category>, name: string): (r: Option<Category>)
    ensures r.Some? ==> r.value in cats && r.value.name == name
    ensures r.None? <==> name !in Names(cats)
  {
    if |cats| == 0 then None
    else if cats[0].name == name then Some(cats[0])
    else
      assert Names(cats) == {cats[0].name} + Names(cats[1..]) by {
        assert cats == [cats[0]] + cats[1..];
      }
      FindByName(cats[1..], name)
  }

  /** `Category.find_by(name:, description:)`: the first category matching both. */
  function FindByNameAndDescription(cats: seq<Category>, name: string, desc: Option<string>): (r: Option<Category>)
    ensures r.Some? ==> r.value in cats && r.value.name == name && r.value.description == desc
    ensures r.None? <==> forall c :: c in cats ==> !(c.name == name && c.description == desc)
  {
    if |cats| == 0 then None
    else if cats[0].name == name && cats[0].description == desc then Some(cats[0])
    else FindByNameAndDescription(cats[1..], name, desc)
  }

  /** `Category.find(id)`: the category with that id. */
  function FindById(cats: seq<Category>, id: nat): (r: Option<Category>)
    ensures r.Some? ==> r.value in cats && r.value.id == id
    ensures r.None? <==> forall c :: c in cats ==> c.id != id
  {
    if |cats| == 0 then None
    else if cats[0].id == id then Some(cats[0])
    else FindById(cats[1..], id)
  }

  /** With names unique, `find_by(name:)` finds the one category of that name. */
  lemma FindByNameUnique(cats: seq<Category>, c: Category)
    requires NamesDistinct(cats) && c in cats
    ensures FindByName(cats, c.name) == Some(c)
  {
    var k :| 0 <= k < |cats| && cats[k] == c;
    var found := FindByName(cats, c.name).value;
    var j :| 0 <= j < |cats| && cats[j] == found;
    assert j == k;
  }

  /** With ids unique, `find(id)` finds the one category of that id. */
  lemma FindByIdUnique(cats: seq<Category>, c: Category)
    requires IdsDistinct(cats) && c in cats
    ensures FindById(cats, c.id) == Some(c)
  {
    var k :| 0 <= k < |cats| && cats[k] == c;
    var found := FindById(cats, c.id).value;
    var j :| 0 <= j < |cats| && cats[j] == found;
    assert j == k;
  }

  /** The table keyed by id, as the controller sees it once the backfill is
      done: each key holds the row `find` returns for it. */
  function AsTable(cats: seq<Category>): (t: CategoryTable)
    ensures forall id :: id in t <==> FindById(cats, id).Some?
    ensures forall id :: id in t ==> FindById(cats, id) == Some(t[id])
  {
    if |cats| == 0 then map[]
    else AsTable(cats[1..])[cats[0].id := cats[0]]
  }

  /** With ids unique, every row of the sequence is in the table under its own id. */
  lemma AsTableHoldsEveryRow(cats: seq<Category>, i: nat)
    requires IdsDistinct(cats) && i < |cats|
    ensures cats[i].id in AsTable(cats) && AsTable(cats)[cats[i].id] == cats[i]
  {
    FindByIdUnique(cats, cats[i]);
  }

  /** `Expense.where.not(category: [nil, ""]).distinct.pluck(:category)`,
      listed in order of first appearance. */
  function DistinctNonBlank(xs: seq<LegacyExpense>): (r: seq<string>)
    ensures forall i, j :: 0 <= i < j < |r| ==> r[i] != r[j]
    ensures (set n | n in r) == NonBlankStrings(xs)
  {
    if |xs| == 0 then []
    else
      var init := xs[..|xs| - 1];
      var x := xs[|xs| - 1];
      var r := DistinctNonBlank(init);
      assert NonBlankStrings(xs) == NonBlankStrings(init)
                                    + (if BlankCategory(x.category) then {} else {x.category.value}) by {
        assert forall i :: 0 <= i < |init| ==> xs[i] == init[i];
      }
      if !BlankCategory(x.category) && x.category.value !in r then r + [x.category.value] else r
  }

  /** `after` is `before` with zero or more categories appended, each created
      without a description under an id the counter handed out in between. */
  ghost predicate Extends(before: seq<Category>, next: nat, after: seq<Category>, next': nat) {
    && |before| <= |after| && after[..|before|] == before
    && next <= next'
    && forall i :: |before| <= i < |after| ==> next <= after[i].id < next' && after[i].description == None
  }

  lemma ExtendsTransitive(a: seq<Category>, na: nat, b: seq<Category>, nb: nat, c: seq<Category>, nc: nat)
    requires Extends(a, na, b, nb) && Extends(b, nb, c, nc)
    ensures Extends(a, na, c, nc)
  {
    assert c[..|a|] == c[..|b|][..|a|];
    forall i | |a| <= i < |b| ensures c[i] == b[i] {
      assert c[..|b|][i] == c[i];
    }
  }

  /** `Category.find_or_create_by(name:)`: reuse a category of that name or
      insert one (with no description) under the next id. */
  function FindOrCreateByName(cats: seq<Category>, next: nat, name: string): (r: (seq<Category>, nat))
    ensures Extends(cats, next, r.0, r.1)
    ensures Names(r.0) == Names(cats) + {name}
    ensures TableInvariant(cats, next) ==> TableInvariant(r.0, r.1)
  {
    if FindByName(cats, name).Some? then (cats, next)
    else
      var r := cats + [Category(next, name, None)];
      assert r[..|cats|] == cats;
      assert Names(r) == Names(cats) + {name};
      assert forall i :: 0 <= i < |cats| ==> cats[i] in cats;
      (r, next + 1)
  }

  lemma ElementsOfCons(names: seq<string>)
    requires 0 < |names|
    ensures (set n | n in names) == {names[0]} + (set n | n in names[1..])
  {
    assert names == [names[0]] + names[1..];
  }

  /** Lines 7-9: `find_or_create_by(name:)` for each string in turn. */
  function CreateAll(names: seq<string>, cats: seq<Category>, next: nat): (r: (seq<Category>, nat))
    ensures Extends(cats, next, r.0, r.1)
    ensures Names(r.0) == Names(cats) + (set n | n in names)
    ensures TableInvariant(cats, next) ==> TableInvariant(r.0, r.1)
  {
    if |names| == 0 then (cats, next)
    else
      var step := FindOrCreateByName(cats, next, names[0]);
      var r := CreateAll(names[1..], step.0, step.1);
      ElementsOfCons(names);
      ExtendsTransitive(cats, next, step.0, step.1, r.0, r.1);
      r
  }

  /** Lines 12-15: each expense with a non-blank string is pointed at the
      category of that name, when there is one. */
  function LinkNamed(x: LegacyExpense, cats: seq<Category>): LegacyExpense {
    if BlankCategory(x.category) then x
    else match FindByName(cats, x.category.value)
      case Some(c) => x.(categoryId := Some(c.id))
      case None => x
  }

  /** Line 21: `update_all(category_id:)` over the blank-category expenses. */
  function LinkBlank(x: LegacyExpense, id: nat): LegacyExpense {
    if BlankCategory(x.category) then x.(categoryId := Some(id)) else x
  }

  /** Lines 12-15 and 21 over all expenses: only `category_id` is written. */
  function LinkAll(xs: seq<LegacyExpense>, cats: seq<Category>, fallback: Option<nat>): (r: seq<LegacyExpense>)
    ensures |r| == |xs|
    ensures forall i :: 0 <= i < |xs| ==> r[i] == xs[i].(categoryId := r[i].categoryId)
    ensures forall i :: 0 <= i < |xs| && !BlankCategory(xs[i].category) ==>
              r[i].categoryId == (match FindByName(cats, xs[i].category.value)
                                  case Some(c) => Some(c.id)
                                  case None => xs[i].categoryId)
    ensures forall i :: 0 <= i < |xs| && BlankCategory(xs[i].category) && fallback.Some? ==>
              r[i].categoryId == fallback
  {
    seq(|xs|, i requires 0 <= i < |xs| =>
      var x := LinkNamed(xs[i], cats);
      if fallback.Some? then LinkBlank(x, fallback.value) else x)
  }

  /** The categories after lines 4-9. */
  function NamedCategories(db: Db): (r: (seq<Category>, nat)) {
    CreateAll(DistinctNonBlank(db.expenses), db.categories, db.nextCategoryId)
  }

  /** The categories after lines 17-22 and the id blank expenses are given
      (None when no expense is blank). */
  datatype FallbackStep = FallbackStep(categories: seq<Category>, next: nat, id: Option<nat>)

  /** The record line 20 creates. */
  function FallbackCategory(id: nat): Category {
    Category(id, UncategorizedName, Some(UncategorizedDescription))
  }

  /** Lines 18-22 as written: the lookup at line 20 keys on name AND
      description, so a category named "Uncategorized" without that
      description is not found, and inserting a second one of that name
      breaks the unique index. */
  function FallbackAsWritten(cats: seq<Category>, next: nat, needed: bool): Result<FallbackStep, MigrationError> {
    if !needed then Success(FallbackStep(cats, next, None))
    else match FindByNameAndDescription(cats, UncategorizedName, Some(UncategorizedDescription))
      case Some(c) => Success(FallbackStep(cats, next, Some(c.id)))
      case None =>
        if UncategorizedName in Names(cats) then Failure(DuplicateCategoryName(UncategorizedName))
        else Success(FallbackStep(cats + [FallbackCategory(next)], next + 1, Some(next)))
  }

  /** Lines 18-22 with the fallback looked up by name alone (the description
      only given when it is created), so an existing "Uncategorized" is reused. */
  function FallbackCorrected(cats: seq<Category>, next: nat, needed: bool): (r: FallbackStep)
    ensures !needed ==> r == FallbackStep(cats, next, None)
    ensures Names(r.categories) == Names(cats) + (if needed then {UncategorizedName} else {})
    ensures |cats| <= |r.categories| && r.categories[..|cats|] == cats
    ensures TableInvariant(cats, next) ==> TableInvariant(r.categories, r.next)
    ensures needed ==> r.id.Some? && exists c :: c in r.categories && c.id == r.id.value && c.name == UncategorizedName
  {
    if !needed then FallbackStep(cats, next, None)
    else match FindByName(cats, UncategorizedName)
      case Some(c) => FallbackStep(cats, next, Some(c.id))
      case None =>
        var after := cats + [FallbackCategory(next)];
        AppendFallback(cats, next);
        FallbackStep(after, next + 1, Some(next))
  }

  lemma AppendFallback(cats: seq<Category>, next: nat)
    requires UncategorizedName !in Names(cats)
    ensures var after := cats + [FallbackCategory(next)];
            && after[..|cats|] == cats
            && Names(after) == Names(cats) + {UncategorizedName}
            && after[|cats|] in after
            && (TableInvariant(cats, next) ==> TableInvariant(after, next + 1))
  {
    var after := cats + [FallbackCategory(next)];
    assert after[..|cats|] == cats;
    assert forall i :: 0 <= i < |cats| ==> cats[i] in cats;
  }

  /** `up` as written. */
  function Up(db: Db): Result<Db, MigrationError> {
    var named := NamedCategories(db);
    var fallback :- FallbackAsWritten(named.0, named.1, HasBlank(db.expenses));
    Success(Db(LinkAll(db.expenses, named.0, fallback.id), fallback.categories, fallback.next))
  }

  /** `up` with the corrected fallback lookup. */
  function UpCorrected(db: Db): Db {
    var named := NamedCategories(db);
    var fallback := FallbackCorrected(named.0, named.1, HasBlank(db.expenses));
    Db(LinkAll(db.expenses, named.0, fallback.id), fallback.categories, fallback.next)
  }

  /** Lines 27-29 and 32 for one expense: take the linked category's name,
      when the link resolves, and drop the link. */
  function Restore(x: LegacyExpense, cats: seq<Category>): LegacyExpense {
    var named :=
      if x.categoryId.Some? && FindById(cats, x.categoryId.value).Some?
      then x.(category := Some(FindById(cats, x.categoryId.value).value.name))
      else x;
    named.(categoryId := None)
  }

  /** `down`: restore the strings, clear every reference, delete every category. */
  function Down(db: Db): (r: Db)
    ensures r.categories == [] && |r.expenses| == |db.expenses|
    ensures forall i :: 0 <= i < |r.expenses| ==> r.expenses[i].categoryId == None
    ensures forall i :: 0 <= i < |r.expenses| ==>
              r.expenses[i] == db.expenses[i].(category := r.expenses[i].category, categoryId := None)
    ensures forall i, c ::
              (0 <= i < |r.expenses| && c in db.categories && IdsDistinct(db.categories)
               && db.expenses[i].categoryId == Some(c.id))
              ==> r.expenses[i].category == Some(c.name)
    ensures forall i :: 0 <= i < |r.expenses| && db.expenses[i].categoryId.None? ==>
              r.expenses[i].category == db.expenses[i].category
  {
    var xs := seq(|db.expenses|, i requires 0 <= i < |db.expenses| => Restore(db.expenses[i], db.categories));
    assert forall i, c ::
             (0 <= i < |xs| && c in db.categories && IdsDistinct(db.categories)
              && db.expenses[i].categoryId == Some(c.id))
             ==> xs[i].category == Some(c.name) by {
      forall i, c | 0 <= i < |xs| && c in db.categories && IdsDistinct(db.categories)
                    && db.expenses[i].categoryId == Some(c.id)
        ensures xs[i].category == Some(c.name)
      {
        FindByIdUnique(db.categories, c);
      }
    }
    Db(xs, [], db.nextCategoryId)
  }
}

/** Properties of the backfill and of its reversal. */
module CategoryMigrationProofs {
  import opened Wrappers
  import opened Dates
  import opened Records
  import opened CategoryMigration

  lemma NamedCategoriesFacts(db: Db)
    requires TableInvariant(db.categories, db.nextCategoryId)
    ensures TableInvariant(NamedCategories(db).0, NamedCategories(db).1)
    ensures Names(NamedCategories(db).0) == Names(db.categories) + NonBlankStrings(db.expenses)
    ensures Extends(db.categories, db.nextCategoryId, NamedCategories(db).0, NamedCategories(db).1)
  {
  }

  /** `up` keeps the table's unique names and ids. */
  lemma UpKeepsTableInvariant(db: Db)
    requires TableInvariant(db.categories, db.nextCategoryId)
    ensures TableInvariant(UpCorrected(db).categories, UpCorrected(db).nextCategoryId)
  {
    NamedCategoriesFacts(db);
  }

  /** `up` keeps every category that existed before, in place. */
  lemma UpKeepsExistingCategories(db: Db)
    requires TableInvariant(db.categories, db.nextCategoryId)
    ensures |db.categories| <= |UpCorrected(db).categories|
    ensures UpCorrected(db).categories[..|db.categories|] == db.categories
  {
    NamedCategoriesFacts(db);
    var named := NamedCategories(db);
    var f := FallbackCorrected(named.0, named.1, HasBlank(db.expenses));
    PrefixOfPrefix(db.categories, named.0, f.categories);
  }

  lemma PrefixOfPrefix<T>(a: seq<T>, b: seq<T>, c: seq<T>)
    requires |a| <= |b| <= |c| && b[..|a|] == a && c[..|b|] == b
    ensures c[..|a|] == a
  {
    assert c[..|a|] == c[..|b|][..|a|];
  }

  /** After `up` the category names are those that existed, every distinct
      non-blank string, and "Uncategorized" exactly when some expense was blank. */
  lemma UpCategoryNames(db: Db)
    requires TableInvariant(db.categories, db.nextCategoryId)
    ensures Names(UpCorrected(db).categories)
            == Names(db.categories) + NonBlankStrings(db.expenses)
               + (if HasBlank(db.expenses) then {UncategorizedName} else {})
  {
    NamedCategoriesFacts(db);
  }

  /** The fallback category is only created for blank expenses: without one,
      no "Uncategorized" category appears that was not named by the data. */
  lemma NoBlankNoFallback(db: Db)
    requires TableInvariant(db.categories, db.nextCategoryId)
    requires !HasBlank(db.expenses)
    requires UncategorizedName !in Names(db.categories) + NonBlankStrings(db.expenses)
    ensures UncategorizedName !in Names(UpCorrected(db).categories)
  {
    UpCategoryNames(db);
  }

  /** `up` writes `category_id` and nothing else. */
  lemma UpOnlyLinks(db: Db)
    ensures |UpCorrected(db).expenses| == |db.expenses|
    ensures forall i :: 0 <= i < |db.expenses| ==>
              UpCorrected(db).expenses[i]
              == db.expenses[i].(categoryId := UpCorrected(db).expenses[i].categoryId)
  {
  }

  /** Every expense with a non-blank string ends linked to the category of that name. */
  lemma UpLinksNamed(db: Db, i: nat)
    requires TableInvariant(db.categories, db.nextCategoryId)
    requires i < |db.expenses| && !BlankCategory(db.expenses[i].category)
    ensures var r := UpCorrected(db);
            && r.expenses[i].categoryId.Some?
            && FindById(r.categories, r.expenses[i].categoryId.value).Some?
            && FindById(r.categories, r.expenses[i].categoryId.value).value.name == db.expenses[i].category.value
  {
    NamedCategoriesFacts(db);
    UpKeepsTableInvariant(db);
    var cats := NamedCategories(db).0;
    var r := UpCorrected(db);
    var name := db.expenses[i].category.value;
    assert name in NonBlankStrings(db.expenses);
    var c := FindByName(cats, name).value;
    assert r.expenses[i].categoryId == Some(c.id);
    assert c in r.categories by {
      var j :| 0 <= j < |cats| && cats[j] == c;
      assert r.categories[..|cats|][j] == c;
    }
    FindByIdUnique(r.categories, c);
  }

  /** Every expense whose string is nil or "" ends linked to "Uncategorized". */
  lemma UpLinksBlank(db: Db, i: nat)
    requires TableInvariant(db.categories, db.nextCategoryId)
    requires i < |db.expenses| && BlankCategory(db.expenses[i].category)
    ensures var r := UpCorrected(db);
            && r.expenses[i].categoryId.Some?
            && FindById(r.categories, r.expenses[i].categoryId.value).Some?
            && FindById(r.categories, r.expenses[i].categoryId.value).value.name == UncategorizedName
  {
    UpKeepsTableInvariant(db);
    var r := UpCorrected(db);
    assert HasBlank(db.expenses);
    var c :| c in r.categories && Some(c.id) == r.expenses[i].categoryId && c.name == UncategorizedName;
    FindByIdUnique(r.categories, c);
  }

  /** After `up` every expense's reference resolves in the table the
      controller reads, so `expense.category` is never nil afterwards. */
  lemma UpResolvesEveryExpense(db: Db, i: nat)
    requires TableInvariant(db.categories, db.nextCategoryId)
    requires i < |db.expenses|
    ensures var r := UpCorrected(db);
            && r.expenses[i].categoryId.Some?
            && r.expenses[i].categoryId.value in AsTable(r.categories)
  {
    UpKeepsTableInvariant(db);
    var r := UpCorrected(db);
    if BlankCategory(db.expenses[i].category) {
      UpLinksBlank(db, i);
    } else {
      UpLinksNamed(db, i);
    }
    var c := FindById(r.categories, r.expenses[i].categoryId.value).value;
    var k :| 0 <= k < |r.categories| && r.categories[k] == c;
    AsTableHoldsEveryRow(r.categories, k);
  }

  /** `down` after `up` gives every expense back its string, with blank ones
      now reading "Uncategorized", and leaves no reference and no category. */
  lemma DownAfterUp(db: Db)
    requires TableInvariant(db.categories, db.nextCategoryId)
    ensures var r := Down(UpCorrected(db));
            && r.categories == []
            && |r.expenses| == |db.expenses|
            && forall i :: 0 <= i < |db.expenses| ==>
                 r.expenses[i] == db.expenses[i].(
                   category := if BlankCategory(db.expenses[i].category) then Some(UncategorizedName)
                               else db.expenses[i].category,
                   categoryId := None)
  {
    var up := UpCorrected(db);
    var r := Down(up);
    UpOnlyLinks(db);
    UpKeepsTableInvariant(db);
    forall i | 0 <= i < |db.expenses|
      ensures r.expenses[i] == db.expenses[i].(
                category := if BlankCategory(db.expenses[i].category) then Some(UncategorizedName)
                            else db.expenses[i].category,
                categoryId := None)
    {
      if BlankCategory(db.expenses[i].category) {
        UpLinksBlank(db, i);
      } else {
        UpLinksNamed(db, i);
      }
      var c := FindById(up.categories, up.expenses[i].categoryId.value).value;
      assert up.expenses[i].categoryId == Some(c.id);
    }
  }

  /** Whenever `up` as written succeeds it does what the corrected `up` does. */
  lemma UpAgreesWithCorrected(db: Db)
    requires TableInvariant(db.categories, db.nextCategoryId)
    requires Up(db).Success?
    ensures Up(db).value == UpCorrected(db)
  {
    NamedCategoriesFacts(db);
    var cats := NamedCategories(db).0;
    if HasBlank(db.expenses) {
      match FindByNameAndDescription(cats, UncategorizedName, Some(UncategorizedDescription)) {
        case Some(c) => FindByNameUnique(cats, c);
        case None =>
      }
    }
  }

  /** `up` as written fails exactly when some expense is blank, a category
      named "Uncategorized" exists or is named by an expense string, and no
      existing category carries both that name and the default description. */
  lemma UpFailsExactlyWhen(db: Db)
    requires TableInvariant(db.categories, db.nextCategoryId)
    ensures Up(db).Failure? <==>
              && HasBlank(db.expenses)
              && UncategorizedName in Names(db.categories) + NonBlankStrings(db.expenses)
              && forall c :: c in db.categories ==>
                   !(c.name == UncategorizedName && c.description == Some(UncategorizedDescription))
  {
    NamedCategoriesFacts(db);
    var cats, next := NamedCategories(db).0, NamedCategories(db).1;
    var k := |db.categories|;
    forall c | c in cats && c.description == Some(UncategorizedDescription)
      ensures c in db.categories
    {
      var j :| 0 <= j < |cats| && cats[j] == c;
      assert j < k;
      assert cats[..k][j] == c;
    }
    forall c | c in db.categories ensures c in cats {
      var j :| 0 <= j < k && db.categories[j] == c;
      assert cats[..k][j] == c;
    }
    assert Up(db).Failure? <==> FallbackAsWritten(cats, next, HasBlank(db.expenses)).Failure?;
  }

  /** The input that shows the defect: one expense filed under the string
      "Uncategorized" and one with an empty string. */
  function LegacyUncategorizedDb(): Db {
    Db([LegacyExpense(1, 1250, Some("Uncategorized"), None, Date(2025, 10, 24), "Lunch at local cafe"),
        LegacyExpense(2, 4500, Some(""), None, Date(2025, 10, 23), "Gas fill-up")],
       [], 1)
  }

  /** On that input `up` as written breaks the unique index on names. */
  lemma UpRejectsLegacyUncategorized()
    ensures Up(LegacyUncategorizedDb()) == Failure(DuplicateCategoryName(UncategorizedName))
  {
    var db := LegacyUncategorizedDb();
    assert BlankCategory(db.expenses[1].category);
    assert UncategorizedName in NonBlankStrings(db.expenses) by {
      assert !BlankCategory(db.expenses[0].category);
    }
    UpFailsExactlyWhen(db);
  }

  /** On that input the corrected `up` files both expenses under the one
      "Uncategorized" category. */
  lemma UpCorrectedSharesUncategorized()
    ensures var r := UpCorrected(LegacyUncategorizedDb());
            && r.expenses[0].categoryId.Some?
            && r.expenses[0].categoryId == r.expenses[1].categoryId
  {
    var db := LegacyUncategorizedDb();
    var r := UpCorrected(db);
    UpKeepsTableInvariant(db);
    UpLinksNamed(db, 0);
    UpLinksBlank(db, 1);
    var c0 := FindById(r.categories, r.expenses[0].categoryId.value).value;
    var c1 := FindById(r.categories, r.expenses[1].categoryId.value).value;
    FindByNameUnique(r.categories, c0);
    FindByNameUnique(r.categories, c1);
  }
}

=== FILE: chart.dfy ===
/**
 `prepare_chart_data`: the per-category counts and amount sums behind the
 pie chart. The source zips two separate `group` queries by position; here
 one grouping yields buckets that carry label, count and sum together, so the
 three series are aligned by construction. Labels appear in the order their
 category is first seen in the (newest-first) filtered list. The grouping
 goes through `joins(:category)`, an inner join: an expense whose category
 does not resolve takes no part in the chart.
 */
module Chart {
  import opened Records

  /** One group: a category name with the number and total amount of its expenses. */
  datatype Bucket = Bucket(category: string, count: nat, amount: int)

  /** The three parallel series handed to the chart widget. */
  datatype ChartData = ChartData(labels: seq<string>, countData: seq<nat>, amountData: seq<int>)

  /* Reference definitions, by direct counting over the expense list. */

  /** How many expenses of `xs` belong to the category named `name`. */
  function CountIn(xs: seq<Expense>, cats: CategoryTable, name: string): nat {
    if |xs| == 0 then 0
    else CountIn(xs[..|xs| - 1], cats, name) + (if InCategory(xs[|xs| - 1], cats, name) then 1 else 0)
  }

  /** The total amount of the expenses of `xs` in the category named `name`. */
  function SumIn(xs: seq<Expense>, cats: CategoryTable, name: string): int {
    if |xs| == 0 then 0
    else SumIn(xs[..|xs| - 1], cats, name) + (if InCategory(xs[|xs| - 1], cats, name) then xs[|xs| - 1].amount else 0)
  }

  /** How many expenses of `xs` have a category that resolves. */
  function ResolvedCount(xs: seq<Expense>, cats: CategoryTable): nat {
    if |xs| == 0 then 0
    else ResolvedCount(xs[..|xs| - 1], cats) + (if Resolves(xs[|xs| - 1], cats) then 1 else 0)
  }

  /** The total amount of the expenses of `xs` whose category resolves. */
  function ResolvedTotal(xs: seq<Expense>, cats: CategoryTable): int {
    if |xs| == 0 then 0
    else ResolvedTotal(xs[..|xs| - 1], cats) + (if Resolves(xs[|xs| - 1], cats) then xs[|xs| - 1].amount else 0)
  }

  /** The total amount of all expenses of `xs`. */
  function TotalAmount(xs: seq<Expense>): int {
    if |xs| == 0 then 0 else TotalAmount(xs[..|xs| - 1]) + xs[|xs| - 1].amount
  }

  predicate Occurs(xs: seq<Expense>, cats: CategoryTable, name: string) {
    CountIn(xs, cats, name) > 0
  }

  /** A category name occurs in the list exactly when some expense belongs to it. */
  lemma {:induction false} OccursIff(xs: seq<Expense>, cats: CategoryTable, name: string)
    ensures Occurs(xs, cats, name) <==> exists i :: 0 <= i < |xs| && InCategory(xs[i], cats, name)
  {
    if |xs| > 0 {
      var init := xs[..|xs| - 1];
      OccursIff(init, cats, name);
      if Occurs(init, cats, name) {
        var i :| 0 <= i < |init| && InCategory(init[i], cats, name);
        assert xs[i] == init[i];
      }
      if exists i :: 0 <= i < |xs| && InCategory(xs[i], cats, name) {
        var i :| 0 <= i < |xs| && InCategory(xs[i], cats, name);
        if i < |init| {
          assert init[i] == xs[i];
        }
      }
    }
  }

  /** The position of the first expense of the category named `name`. */
  function FirstSeen(xs: seq<Expense>, cats: CategoryTable, name: string): (k: nat)
    requires Occurs(xs, cats, name)
    ensures k < |xs| && InCategory(xs[k], cats, name)
    ensures forall j :: 0 <= j < k ==> !InCategory(xs[j], cats, name)
  {
    var init := xs[..|xs| - 1];
    OccursIff(init, cats, name);
    if Occurs(init, cats, name) then FirstSeen(init, cats, name) else |xs| - 1
  }

  /* Projections of a bucket list onto the three series. */

  function Labels(bs: seq<Bucket>): (r: seq<string>)
    ensures |r| == |bs| && forall i :: 0 <= i < |bs| ==> r[i] == bs[i].category
  {
    seq(|bs|, i requires 0 <= i < |bs| => bs[i].category)
  }

  function Counts(bs: seq<Bucket>): (r: seq<nat>)
    ensures |r| == |bs| && forall i :: 0 <= i < |bs| ==> r[i] == bs[i].count
  {
    seq(|bs|, i requires 0 <= i < |bs| => bs[i].count)
  }

  function Amounts(bs: seq<Bucket>): (r: seq<int>)
    ensures |r| == |bs| && forall i :: 0 <= i < |bs| ==> r[i] == bs[i].amount
  {
    seq(|bs|, i requires 0 <= i < |bs| => bs[i].amount)
  }

  function Sum(s: seq<int>): int {
    if |s| == 0 then 0 else Sum(s[..|s| - 1]) + s[|s| - 1]
  }

  /** The position of the bucket labelled `name`, or `|bs|` when there is none. */
  function LabelIndex(bs: seq<Bucket>, name: string): (i: nat)
    ensures i <= |bs|
    ensures i < |bs| ==> bs[i].category == name
    ensures forall j :: 0 <= j < i ==> bs[j].category != name
  {
    if |bs| == 0 then 0
    else if bs[0].category == name then 0
    else 1 + LabelIndex(bs[1..], name)
  }

  /** Adds one expense of category `name` and amount `amount` to its group,
      opening a new group at the end when the name has not been seen. */
  function Tally(bs: seq<Bucket>, name: string, amount: int): seq<Bucket> {
    var i := LabelIndex(bs, name);
    if i < |bs| then bs[i := Bucket(name, bs[i].count + 1, bs[i].amount + amount)]
    else bs + [Bucket(name, 1, amount)]
  }

  /** `r` groups `xs` by category name: one bucket per name that occurs,
      holding the number and total amount of that name's expenses. */
  ghost predicate IsGrouping(r: seq<Bucket>, xs: seq<Expense>, cats: CategoryTable) {
    && (forall i, j :: 0 <= i < j < |r| ==> r[i].category != r[j].category)
    && (forall i :: 0 <= i < |r| ==> 1 <= r[i].count)
    && (forall i :: 0 <= i < |r| ==> r[i].count == CountIn(xs, cats, r[i].category))
    && (forall i :: 0 <= i < |r| ==> r[i].amount == SumIn(xs, cats, r[i].category))
    && (forall name :: name in Labels(r) <==> Occurs(xs, cats, name))
  }

  lemma {:induction false} NoCountNoSum(xs: seq<Expense>, cats: CategoryTable, name: string)
    requires CountIn(xs, cats, name) == 0
    ensures SumIn(xs, cats, name) == 0
  {
    if |xs| > 0 {
      NoCountNoSum(xs[..|xs| - 1], cats, name);
    }
  }

  /** Tallying the next expense into a grouping of the earlier ones groups them all. */
  lemma TallyStep(bs: seq<Bucket>, init: seq<Expense>, e: Expense, cats: CategoryTable)
    requires IsGrouping(bs, init, cats)
    requires e.categoryId in cats
    ensures IsGrouping(Tally(bs, cats[e.categoryId].name, e.amount), init + [e], cats)
  {
    var xs := init + [e];
    var name := cats[e.categoryId].name;
    var r := Tally(bs, name, e.amount);
    var k := LabelIndex(bs, name);
    assert xs[..|xs| - 1] == init;
    assert xs[|xs| - 1] == e;
    if k < |bs| {
      assert Labels(r) == Labels(bs);
    } else {
      assert Labels(r) == Labels(bs) + [name];
      assert name !in Labels(bs);
      NoCountNoSum(init, cats, name);
    }
    forall i | 0 <= i < |r|
      ensures r[i].count == CountIn(xs, cats, r[i].category)
      ensures r[i].amount == SumIn(xs, cats, r[i].category)
    {
      if i != k && i < |bs| {
        assert r[i] == bs[i];
        assert bs[i].category != name;
      }
    }
  }

  /** Groups `xs` by category name in one pass. */
  function Aggregate(xs: seq<Expense>, cats: CategoryTable): (r: seq<Bucket>)
    ensures IsGrouping(r, xs, cats)
  {
    if |xs| == 0 then []
    else
      var init := xs[..|xs| - 1];
      var e := xs[|xs| - 1];
      var bs := Aggregate(init, cats);
      assert xs == init + [e];
      if e.categoryId in cats then
        TallyStep(bs, init, e, cats);
        Tally(bs, cats[e.categoryId].name, e.amount)
      else
        bs
  }

  lemma {:induction false} SumUpdate(s: seq<int>, i: nat, v: int)
    requires i < |s|
    ensures Sum(s[i := v]) == Sum(s) - s[i] + v
  {
    var t := s[i := v];
    if i < |s| - 1 {
      assert t[..|t| - 1] == s[..|s| - 1][i := v];
      SumUpdate(s[..|s| - 1], i, v);
    } else {
      assert t[..|t| - 1] == s[..|s| - 1];
    }
  }

  lemma SumAppend(s: seq<int>, v: int)
    ensures Sum(s + [v]) == Sum(s) + v
  {
    assert (s + [v])[..|s|] == s;
  }

  /** Tallying one expense adds one to the counts and its amount to the sums. */
  lemma TallyTotals(bs: seq<Bucket>, name: string, amount: int)
    ensures Sum(Counts(Tally(bs, name, amount))) == Sum(Counts(bs)) + 1
    ensures Sum(Amounts(Tally(bs, name, amount))) == Sum(Amounts(bs)) + amount
  {
    var r := Tally(bs, name, amount);
    var k := LabelIndex(bs, name);
    if k < |bs| {
      assert Counts(r) == Counts(bs)[k := bs[k].count + 1];
      assert Amounts(r) == Amounts(bs)[k := bs[k].amount + amount];
      SumUpdate(Counts(bs), k, bs[k].count + 1);
      SumUpdate(Amounts(bs), k, bs[k].amount + amount);
    } else {
      assert Counts(r) == Counts(bs) + [1];
      assert Amounts(r) == Amounts(bs) + [amount];
      SumAppend(Counts(bs), 1);
      SumAppend(Amounts(bs), amount);
    }
  }

  /** The counts add up to the expenses that took part, and the sums to their total. */
  lemma {:induction false} AggregateTotals(xs: seq<Expense>, cats: CategoryTable)
    ensures Sum(Counts(Aggregate(xs, cats))) == ResolvedCount(xs, cats)
    ensures Sum(Amounts(Aggregate(xs, cats))) == ResolvedTotal(xs, cats)
  {
    if |xs| > 0 {
      var init := xs[..|xs| - 1];
      var e := xs[|xs| - 1];
      var bs := Aggregate(init, cats);
      AggregateTotals(init, cats);
      if e.categoryId in cats {
        var name := cats[e.categoryId].name;
        assert Aggregate(xs, cats) == Tally(bs, name, e.amount);
        TallyTotals(bs, name, e.amount);
      } else {
        assert Aggregate(xs, cats) == bs;
      }
    }
  }

  /** Buckets whose categories all occur in `xs`, listed by first appearance. */
  ghost predicate FirstSeenOrdered(bs: seq<Bucket>, xs: seq<Expense>, cats: CategoryTable) {
    && (forall i :: 0 <= i < |bs| ==> Occurs(xs, cats, bs[i].category))
    && (forall i, j :: 0 <= i < j < |bs| ==>
          FirstSeen(xs, cats, bs[i].category) < FirstSeen(xs, cats, bs[j].category))
  }

  /** Appending an expense does not move the first appearance of a name seen before. */
  lemma FirstSeenExtend(init: seq<Expense>, e: Expense, cats: CategoryTable, name: string)
    requires Occurs(init, cats, name)
    ensures Occurs(init + [e], cats, name)
    ensures FirstSeen(init + [e], cats, name) == FirstSeen(init, cats, name)
  {
    var xs := init + [e];
    assert xs[..|xs| - 1] == init;
  }

  lemma OrderStep(bs: seq<Bucket>, init: seq<Expense>, e: Expense, cats: CategoryTable)
    requires FirstSeenOrdered(bs, init, cats)
    requires e.categoryId in cats
    requires cats[e.categoryId].name !in Labels(bs) ==> !Occurs(init, cats, cats[e.categoryId].name)
    ensures FirstSeenOrdered(Tally(bs, cats[e.categoryId].name, e.amount), init + [e], cats)
  {
    var xs := init + [e];
    var name := cats[e.categoryId].name;
    var r := Tally(bs, name, e.amount);
    var k := LabelIndex(bs, name);
    forall i | 0 <= i < |bs|
      ensures Occurs(xs, cats, bs[i].category)
      ensures FirstSeen(xs, cats, bs[i].category) == FirstSeen(init, cats, bs[i].category)
    {
      FirstSeenExtend(init, e, cats, bs[i].category);
    }
    assert forall i :: 0 <= i < |bs| ==> r[i].category == bs[i].category;
    if k < |bs| {
      assert |r| == |bs|;
    } else {
      assert name !in Labels(bs);
      assert xs[..|xs| - 1] == init;
      assert xs[|xs| - 1] == e;
      OccursIff(init, cats, name);
      assert FirstSeen(xs, cats, name) == |xs| - 1;
      assert |r| == |bs| + 1 && r[|bs|].category == name;
      forall i, j | 0 <= i < j < |r|
        ensures FirstSeen(xs, cats, r[i].category) < FirstSeen(xs, cats, r[j].category)
      {
        if j < |bs| {
          assert FirstSeen(init, cats, bs[i].category) < FirstSeen(init, cats, bs[j].category);
        }
      }
    }
  }

  lemma OrderSkip(bs: seq<Bucket>, init: seq<Expense>, e: Expense, cats: CategoryTable)
    requires FirstSeenOrdered(bs, init, cats)
    ensures FirstSeenOrdered(bs, init + [e], cats)
  {
    forall i | 0 <= i < |bs| ensures FirstSeen(init + [e], cats, bs[i].category) == FirstSeen(init, cats, bs[i].category) {
      FirstSeenExtend(init, e, cats, bs[i].category);
    }
  }

  /** Labels are listed in the order their category first appears in `xs`. */
  lemma {:induction false} AggregateFirstSeenOrder(xs: seq<Expense>, cats: CategoryTable)
    ensures FirstSeenOrdered(Aggregate(xs, cats), xs, cats)
  {
    if |xs| > 0 {
      var init := xs[..|xs| - 1];
      var e := xs[|xs| - 1];
      var bs := Aggregate(init, cats);
      assert xs == init + [e];
      AggregateFirstSeenOrder(init, cats);
      if e.categoryId in cats {
        assert cats[e.categoryId].name !in Labels(bs) ==> !Occurs(init, cats, cats[e.categoryId].name);
        OrderStep(bs, init, e, cats);
      } else {
        OrderSkip(bs, init, e, cats);
      }
    }
  }

  /** Every expense whose category resolves is counted exactly once. */
  lemma {:induction false} AllResolved(xs: seq<Expense>, cats: CategoryTable)
    requires forall e :: e in xs ==> Resolves(e, cats)
    ensures ResolvedCount(xs, cats) == |xs|
    ensures ResolvedTotal(xs, cats) == TotalAmount(xs)
  {
    if |xs| > 0 {
      var init := xs[..|xs| - 1];
      assert forall e :: e in init ==> e in xs;
      assert xs[|xs| - 1] in xs;
      AllResolved(init, cats);
    }
  }

  /** `prepare_chart_data`: aligned labels, counts and sums, one entry per
      category that occurs among the filtered expenses. */
  function PrepareChartData(xs: seq<Expense>, cats: CategoryTable): (c: ChartData)
    ensures |c.labels| == |c.countData| == |c.amountData|
    ensures forall i, j :: 0 <= i < j < |c.labels| ==> c.labels[i] != c.labels[j]
    ensures forall name :: name in c.labels <==> Occurs(xs, cats, name)
    ensures forall i :: 0 <= i < |c.labels| ==>
              c.countData[i] == CountIn(xs, cats, c.labels[i]) && 1 <= c.countData[i]
              && c.amountData[i] == SumIn(xs, cats, c.labels[i])
    ensures forall i, j :: 0 <= i < j < |c.labels| ==>
              FirstSeen(xs, cats, c.labels[i]) < FirstSeen(xs, cats, c.labels[j])
    ensures Sum(c.countData) == ResolvedCount(xs, cats)
    ensures Sum(c.amountData) == ResolvedTotal(xs, cats)
  {
    var bs := Aggregate(xs, cats);
    AggregateTotals(xs, cats);
    AggregateFirstSeenOrder(xs, cats);
    GroupingSeries(bs, xs, cats);
    OrderedSeries(bs, xs, cats);
    ChartData(Labels(bs), Counts(bs), Amounts(bs))
  }

  /** A grouping, read off as three series, has distinct labels naming exactly
      the occurring categories, each with its count and sum. */
  lemma GroupingSeries(bs: seq<Bucket>, xs: seq<Expense>, cats: CategoryTable)
    requires IsGrouping(bs, xs, cats)
    ensures forall i, j :: 0 <= i < j < |bs| ==> Labels(bs)[i] != Labels(bs)[j]
    ensures forall name :: name in Labels(bs) <==> Occurs(xs, cats, name)
    ensures forall i :: 0 <= i < |bs| ==>
              Counts(bs)[i] == CountIn(xs, cats, Labels(bs)[i]) && 1 <= Counts(bs)[i]
              && Amounts(bs)[i] == SumIn(xs, cats, Labels(bs)[i])
  {
  }

  lemma OrderedSeries(bs: seq<Bucket>, xs: seq<Expense>, cats: CategoryTable)
    requires FirstSeenOrdered(bs, xs, cats)
    ensures forall i :: 0 <= i < |bs| ==> Occurs(xs, cats, Labels(bs)[i])
    ensures forall i, j :: 0 <= i < j < |bs| ==>
              FirstSeen(xs, cats, Labels(bs)[i]) < FirstSeen(xs, cats, Labels(bs)[j])
  {
  }

  /** With every category resolving (the foreign key holds), the counts add up
      to the size of the filtered list and the sums to its total amount;
      an empty list gives three empty series. */
  lemma ChartCoversCollection(xs: seq<Expense>, cats: CategoryTable)
    requires forall e :: e in xs ==> Resolves(e, cats)
    ensures Sum(PrepareChartData(xs, cats).countData) == |xs|
    ensures Sum(PrepareChartData(xs, cats).amountData) == TotalAmount(xs)
    ensures |xs| == 0 ==> PrepareChartData(xs, cats) == ChartData([], [], [])
  {
    AllResolved(xs, cats);
  }
}

=== FILE: csv_export.dfy ===
/**
 `export_to_csv` and `generate_csv_filename`: the CSV document as a sequence
 of rows of fields (byte-level quoting is the CSV library's business), and
 the download's file name.
 */
module CsvExport {
  import opened Wrappers
  import opened Digits
  import opened Dates
  import opened Records
  import opened RequestParams

  type Row = seq<string>

  const Header: Row := ["Date", "Category", "Amount", "Description"]

  datatype ExportError = MissingCategory(expenseId: nat)

  /** `amount.to_f.to_s` for an amount in hundredths: the whole part, a point,
      and the fraction with a trailing zero dropped but at least one digit
      (1250 is "12.5", 4500 is "45.0", 1234 is "12.34", -5 is "-0.05"). */
  function FormatAmount(c: int): string {
    (if c < 0 then "-" else "") + MagnitudeText(if c < 0 then -c else c)
  }

  function MagnitudeText(mag: nat): string {
    var cents := mag % 100;
    var frac := if cents % 10 == 0 then [DigitChar(cents / 10)]
                else [DigitChar(cents / 10), DigitChar(cents % 10)];
    NatToString(mag / 100) + "." + frac
  }

  /** Reads an amount written as an optional minus, digits, a point and one
      or two fraction digits, in hundredths. */
  function ParseAmount(s: string): Option<int> {
    if |s| > 0 && s[0] == '-' then
      match ParseMagnitude(s[1..])
      case Some(v) => Some(-(v as int))
      case None => None
    else
      match ParseMagnitude(s)
      case Some(v) => Some(v as int)
      case None => None
  }

  function ParseMagnitude(body: string): Option<nat> {
    var n := |body|;
    if n >= 3 && body[n - 2] == '.' && AllDigits(body[..n - 2]) && IsDigit(body[n - 1]) then
      Some(100 * StringToNat(body[..n - 2]) + 10 * DigitValue(body[n - 1]))
    else if n >= 4 && body[n - 3] == '.' && AllDigits(body[..n - 3]) && AllDigits(body[n - 2..]) then
      Some(100 * StringToNat(body[..n - 3]) + StringToNat(body[n - 2..]))
    else None
  }

  lemma MagnitudeReadsBack(mag: nat)
    ensures ParseMagnitude(MagnitudeText(mag)) == Some(mag)
  {
    var cents := mag % 100;
    var whole := NatToString(mag / 100);
    var body := MagnitudeText(mag);
    var n := |body|;
    if cents % 10 == 0 {
      assert body == whole + "." + [DigitChar(cents / 10)];
      assert body[..n - 2] == whole;
      assert body[n - 2] == '.';
      assert 100 * (mag / 100) + 10 * (cents / 10) == mag;
    } else {
      var two := [DigitChar(cents / 10), DigitChar(cents % 10)];
      assert body == whole + "." + two;
      assert body[n - 2] != '.';
      assert body[..n - 3] == whole;
      assert body[n - 2..] == two;
      assert two[..1] == [DigitChar(cents / 10)];
      assert StringToNat(two) == cents;
    }
  }

  /** Round trip: every rendered amount reads back as itself. */
  lemma FormatThenParseAmount(c: int)
    ensures ParseAmount(FormatAmount(c)) == Some(c)
  {
    var mag: nat := if c < 0 then -c else c;
    var body := MagnitudeText(mag);
    MagnitudeReadsBack(mag);
    if c < 0 {
      assert FormatAmount(c)[1..] == body;
    } else {
      assert FormatAmount(c) == body;
      assert body[0] == NatToString(mag / 100)[0];
    }
  }

  /** One data row: `[date.strftime("%Y-%m-%d"), category.name, amount.to_f, description]`. */
  function ExpenseRow(e: Expense, category: string): (row: Row)
    ensures |row| == |Header|
  {
    [FormatDate(e.date), category, FormatAmount(e.amount), e.description]
  }

  /** The fields a data row carries, as a reader of the file recovers them. */
  datatype RowData = RowData(date: Date, category: string, amount: int, description: string)

  function ParseRow(row: Row): Option<RowData> {
    if |row| != 4 then None
    else match (ParseDate(row[0]), ParseAmount(row[2]))
      case (Some(d), Some(a)) => Some(RowData(d, row[1], a, row[3]))
      case _ => None
  }

  /** Round trip: a data row reads back as the expense's date, category name,
      amount and description. */
  lemma ExpenseRowReadsBack(e: Expense, category: string)
    requires ValidDate(e.date) && e.date.year <= 9999
    ensures ParseRow(ExpenseRow(e, category)) == Some(RowData(e.date, category, e.amount, e.description))
  {
    FormatThenParse(e.date);
    FormatThenParseAmount(e.amount);
  }

  /** The index of the first expense whose category does not resolve, or `|xs|`. */
  function FirstUnresolved(xs: seq<Expense>, cats: CategoryTable): (k: nat)
    ensures k <= |xs|
    ensures k < |xs| ==> !Resolves(xs[k], cats)
    ensures forall i :: 0 <= i < k ==> Resolves(xs[i], cats)
  {
    if |xs| == 0 then 0
    else if !Resolves(xs[0], cats) then 0
    else 1 + FirstUnresolved(xs[1..], cats)
  }

  /** The data rows, one per expense in order; `expense.category.name` on an
      expense without a category raises, which ends the export. */
  function DataRows(xs: seq<Expense>, cats: CategoryTable): (r: Result<seq<Row>, ExportError>)
    ensures r.Success? <==> forall i :: 0 <= i < |xs| ==> Resolves(xs[i], cats)
    ensures r.Failure? ==> r.error == MissingCategory(xs[FirstUnresolved(xs, cats)].id)
    ensures r.Success? ==> |r.value| == |xs|
    ensures r.Success? ==> forall i :: 0 <= i < |xs| ==>
              r.value[i] == ExpenseRow(xs[i], cats[xs[i].categoryId].name)
  {
    if |xs| == 0 then Success([])
    else if !Resolves(xs[0], cats) then Failure(MissingCategory(xs[0].id))
    else
      var tail := DataRows(xs[1..], cats);
      assert forall i :: 0 < i < |xs| ==> xs[i] == xs[1..][i - 1];
      if tail.Failure? then
        assert FirstUnresolved(xs, cats) == 1 + FirstUnresolved(xs[1..], cats);
        Failure(tail.error)
      else
        var head := ExpenseRow(xs[0], cats[xs[0].categoryId].name);
        ConsIndex(head, tail.value);
        Success([head] + tail.value)
  }

  lemma ConsIndex<T>(h: T, t: seq<T>)
    ensures |[h] + t| == 1 + |t| && ([h] + t)[0] == h
    ensures forall i :: 0 < i <= |t| ==> ([h] + t)[i] == t[i - 1]
  {
  }

  /** `CSV.generate`: the header row followed by one row per expense. */
  function CsvRows(xs: seq<Expense>, cats: CategoryTable): (r: Result<seq<Row>, ExportError>)
    ensures r.Success? <==> forall i :: 0 <= i < |xs| ==> Resolves(xs[i], cats)
    ensures r.Success? ==> |r.value| == 1 + |xs| && r.value[0] == Header
    ensures r.Success? ==> forall i :: 0 <= i < |xs| ==>
              r.value[i + 1] == ExpenseRow(xs[i], cats[xs[i].categoryId].name)
  {
    var rows :- DataRows(xs, cats);
    Success([Header] + rows)
  }

  /** Reading the document back gives, row for row, the exported expenses'
      date, category name, amount and description, in the list's order. */
  lemma CsvReadsBack(xs: seq<Expense>, cats: CategoryTable)
    requires forall i :: 0 <= i < |xs| ==> Resolves(xs[i], cats)
    requires forall i :: 0 <= i < |xs| ==> ValidDate(xs[i].date) && xs[i].date.year <= 9999
    ensures CsvRows(xs, cats).Success?
    ensures var rows := CsvRows(xs, cats).value;
            forall i :: 0 <= i < |xs| ==>
              ParseRow(rows[i + 1])
              == Some(RowData(xs[i].date, cats[xs[i].categoryId].name, xs[i].amount, xs[i].description))
  {
    var rows := CsvRows(xs, cats).value;
    forall i | 0 <= i < |xs|
      ensures ParseRow(rows[i + 1])
              == Some(RowData(xs[i].date, cats[xs[i].categoryId].name, xs[i].amount, xs[i].description))
    {
      ExpenseRowReadsBack(xs[i], cats[xs[i].categoryId].name);
    }
  }

  /** `generate_csv_filename`, with `Date.current` passed in as `today`. */
  function Filename(startDate: Option<string>, endDate: Option<string>, today: Date): (name: string)
    ensures |name| >= 13 && name[..9] == "expenses_" && name[|name| - 4..] == ".csv"
  {
    if Present(startDate) && Present(endDate) then "expenses_" + startDate.value + "_to_" + endDate.value + ".csv"
    else if Present(startDate) then "expenses_from_" + startDate.value + ".csv"
    else if Present(endDate) then "expenses_until_" + endDate.value + ".csv"
    else "expenses_" + FormatDate(today) + ".csv"
  }

  /** The name describes the range the list was filtered by: both dates, the
      lower or the upper bound alone, or today's date when neither is given. */
  lemma FilenameOfParsedBounds(startDate: Option<string>, endDate: Option<string>, today: Date,
                               lo: Option<Date>, hi: Option<Date>)
    requires ParseBound(startDate) == Success(lo) && ParseBound(endDate) == Success(hi)
    ensures var name := Filename(startDate, endDate, today);
            && (lo.Some? && hi.Some? ==>
                  name == "expenses_" + FormatDate(lo.value) + "_to_" + FormatDate(hi.value) + ".csv")
            && (lo.Some? && hi.None? ==> name == "expenses_from_" + FormatDate(lo.value) + ".csv")
            && (lo.None? && hi.Some? ==> name == "expenses_until_" + FormatDate(hi.value) + ".csv")
            && (lo.None? && hi.None? ==> name == "expenses_" + FormatDate(today) + ".csv")
  {
  }

  /** Without bounds, the date embedded in the name reads back as today. */
  lemma FilenameCarriesToday(startDate: Option<string>, endDate: Option<string>, today: Date)
    requires !Present(startDate) && !Present(endDate)
    requires ValidDate(today) && today.year <= 9999
    ensures |Filename(startDate, endDate, today)| == 23
    ensures ParseDate(Filename(startDate, endDate, today)[9..19]) == Some(today)
  {
    var name := Filename(startDate, endDate, today);
    FormatDateLength(today);
    assert name[9..19] == FormatDate(today);
    FormatThenParse(today);
  }
}

=== FILE: date_filter.dfy ===
/**
 The `index` action's list: the date-range restriction (both bounds
 inclusive, an absent bound imposing nothing) followed by `order(date: :desc)`.
 */
module DateFilter {
  import opened Wrappers
  import opened Dates
  import opened Records

  /** `date >= lo` when a lower bound is given and `date <= hi` when an upper one is. */
  predicate InRange(d: Date, lo: Option<Date>, hi: Option<Date>) {
    (lo.None? || DateLe(lo.value, d)) && (hi.None? || DateLe(d, hi.value))
  }

  /** Every expense is dated on or after every later one. */
  predicate NewestFirst(s: seq<Expense>) {
    forall i, j :: 0 <= i < j < |s| ==> DateLe(s[j].date, s[i].date)
  }

  /** The `where` clauses: the expenses in range, in their original order. */
  function Filter(xs: seq<Expense>, lo: Option<Date>, hi: Option<Date>): (r: seq<Expense>)
    ensures forall e :: multiset(r)[e] == if InRange(e.date, lo, hi) then multiset(xs)[e] else 0
    ensures forall e :: e in r <==> e in xs && InRange(e.date, lo, hi)
    ensures |r| <= |xs|
  {
    if |xs| == 0 then []
    else
      assert xs == [xs[0]] + xs[1..];
      (if InRange(xs[0].date, lo, hi) then [xs[0]] else []) + Filter(xs[1..], lo, hi)
  }

  /** Places `x` in front of the first expense dated no later than it. */
  function Insert(x: Expense, s: seq<Expense>): (r: seq<Expense>)
    requires NewestFirst(s)
    ensures NewestFirst(r)
    ensures multiset(r) == multiset(s) + multiset{x}
  {
    if |s| == 0 then [x]
    else if DateLe(s[0].date, x.date) then
      DateLeTotalOrder(s[0].date, x.date, x.date);
      [x] + s
    else
      var rest := Insert(x, s[1..]);
      assert s == [s[0]] + s[1..];
      BelowHead(x, s, rest);
      PrependNewest(s[0], rest);
      [s[0]] + rest
  }

  /** Whatever `Insert` placed behind the head of `s` is dated no later than that head. */
  lemma BelowHead(x: Expense, s: seq<Expense>, rest: seq<Expense>)
    requires |s| > 0 && NewestFirst(s) && !DateLe(s[0].date, x.date)
    requires multiset(rest) == multiset(s[1..]) + multiset{x}
    ensures forall e :: e in rest ==> DateLe(e.date, s[0].date)
  {
    forall e | e in rest ensures DateLe(e.date, s[0].date) {
      assert e in multiset(rest);
      if e != x {
        assert e in multiset(s[1..]);
        var k :| 0 <= k < |s[1..]| && s[1..][k] == e;
        assert s[k + 1] == e;
      } else {
        DateLeTotalOrder(s[0].date, x.date, x.date);
      }
    }
  }

  /** A head dated no earlier than everything behind it keeps a newest-first list newest first. */
  lemma PrependNewest(h: Expense, rest: seq<Expense>)
    requires NewestFirst(rest)
    requires forall e :: e in rest ==> DateLe(e.date, h.date)
    ensures NewestFirst([h] + rest)
  {
    var s := [h] + rest;
    forall i, j | 0 <= i < j < |s| ensures DateLe(s[j].date, s[i].date) {
      if i > 0 {
        assert s[i] == rest[i - 1] && s[j] == rest[j - 1];
      } else {
        assert s[j] == rest[j - 1];
      }
    }
  }

  /** `order(date: :desc)`: the same expenses, newest first (ties in no promised order). */
  function SortNewestFirst(xs: seq<Expense>): (r: seq<Expense>)
    ensures NewestFirst(r)
    ensures multiset(r) == multiset(xs)
  {
    if |xs| == 0 then []
    else
      assert xs == [xs[0]] + xs[1..];
      Insert(xs[0], SortNewestFirst(xs[1..]))
  }

  /** The filtered collection of the `index` action (lines 9-17). */
  function FilterAndOrder(xs: seq<Expense>, lo: Option<Date>, hi: Option<Date>): (r: seq<Expense>)
    ensures NewestFirst(r)
    ensures forall e :: multiset(r)[e] == if InRange(e.date, lo, hi) then multiset(xs)[e] else 0
    ensures forall e :: e in r <==> e in xs && InRange(e.date, lo, hi)
    ensures |r| <= |xs|
  {
    var kept := Filter(xs, lo, hi);
    var r := SortNewestFirst(kept);
    assert |r| == |multiset(r)| == |multiset(kept)| == |kept|;
    r
  }

  /** Without bounds the list is the whole collection, reordered. */
  lemma NoBoundsKeepsAll(xs: seq<Expense>)
    ensures multiset(FilterAndOrder(xs, None, None)) == multiset(xs)
    ensures |FilterAndOrder(xs, None, None)| == |xs|
  {
    var r := FilterAndOrder(xs, None, None);
    assert forall e :: multiset(r)[e] == multiset(xs)[e];
    assert multiset(r) == multiset(xs);
    assert |multiset(r)| == |r|;
  }

  /** Both bounds are inclusive: an expense dated exactly on a bound is kept,
      whatever the other bound is, as long as it admits the date. */
  lemma BoundsInclusive(xs: seq<Expense>, e: Expense, other: Option<Date>)
    requires e in xs
    ensures (other.None? || DateLe(e.date, other.value)) ==> e in FilterAndOrder(xs, Some(e.date), other)
    ensures (other.None? || DateLe(other.value, e.date)) ==> e in FilterAndOrder(xs, other, Some(e.date))
    ensures e in FilterAndOrder(xs, Some(e.date), Some(e.date))
  {
    DateLeTotalOrder(e.date, e.date, e.date);
  }

  /** The range `(lo', hi')` admits every date `(lo, hi)` does: each of its
      bounds is absent or lies on or beyond the corresponding given one. */
  predicate Encloses(lo': Option<Date>, hi': Option<Date>, lo: Option<Date>, hi: Option<Date>) {
    && (lo'.None? || (lo.Some? && DateLe(lo'.value, lo.value)))
    && (hi'.None? || (hi.Some? && DateLe(hi.value, hi'.value)))
  }

  /** Moving either bound outward, or dropping it, never drops an expense. */
  lemma WiderRangeKeepsMore(xs: seq<Expense>, lo: Option<Date>, hi: Option<Date>, lo': Option<Date>, hi': Option<Date>)
    requires Encloses(lo', hi', lo, hi)
    ensures forall e :: e in FilterAndOrder(xs, lo, hi) ==> e in FilterAndOrder(xs, lo', hi')
  {
    forall e | e in FilterAndOrder(xs, lo, hi) ensures InRange(e.date, lo', hi') {
      if lo'.Some? { DateLeTotalOrder(lo'.value, lo.value, e.date); }
      if hi'.Some? { DateLeTotalOrder(e.date, hi.value, hi'.value); }
    }
  }
}

=== FILE: dates.dfy ===
/**
 Calendar dates as the `date` column holds them, their chronological order,
 and the ISO 8601 `YYYY-MM-DD` text form that `strftime("%Y-%m-%d")` prints
 and that the date-range parameters carry.
 */
module Dates {
  import opened Wrappers
  import opened Digits

  datatype Date = Date(year: nat, month: nat, day: nat)

  predicate IsLeapYear(y: nat) {
    y % 4 == 0 && (y % 100 != 0 || y % 400 == 0)
  }

  function DaysInMonth(y: nat, m: nat): nat
    requires 1 <= m <= 12
  {
    if m == 2 then (if IsLeapYear(y) then 29 else 28)
    else if m == 4 || m == 6 || m == 9 || m == 11 then 30
    else 31
  }

  /** A real day of the proleptic Gregorian calendar. */
  predicate ValidDate(d: Date) {
    1 <= d.month <= 12 && 1 <= d.day <= DaysInMonth(d.year, d.month)
  }

  /** `a` is on or before `b`. */
  predicate DateLe(a: Date, b: Date) {
    a.year < b.year
    || (a.year == b.year && (a.month < b.month || (a.month == b.month && a.day <= b.day)))
  }

  /** `DateLe` is a total order on dates. */
  lemma DateLeTotalOrder(a: Date, b: Date, c: Date)
    ensures DateLe(a, a)
    ensures DateLe(a, b) || DateLe(b, a)
    ensures DateLe(a, b) && DateLe(b, a) ==> a == b
    ensures DateLe(a, b) && DateLe(b, c) ==> DateLe(a, c)
  {
  }

  /** `strftime("%Y-%m-%d")`: year padded to four digits, month and day to two. */
  function FormatDate(d: Date): string {
    PadLeft(d.year, 4) + "-" + PadLeft(d.month, 2) + "-" + PadLeft(d.day, 2)
  }

  /** Reads exactly the canonical `YYYY-MM-DD` form of a valid date; anything
      else (other lengths, separators, non-digits, impossible days) is None. */
  function ParseDate(s: string): (r: Option<Date>)
    ensures r.Some? ==> ValidDate(r.value) && r.value.year <= 9999
  {
    if |s| == 10 && s[4] == '-' && s[7] == '-'
       && AllDigits(s[..4]) && AllDigits(s[5..7]) && AllDigits(s[8..])
    then
      var d := Date(StringToNat(s[..4]), StringToNat(s[5..7]), StringToNat(s[8..]));
      assert StringToNat(s[..4]) < Pow10(4) == 10000;
      if ValidDate(d) then Some(d) else None
    else None
  }

  /** Formatting a valid date of a four-digit year gives a ten-character string. */
  lemma FormatDateLength(d: Date)
    requires ValidDate(d) && d.year <= 9999
    ensures |FormatDate(d)| == 10
  {
    assert Pow10(4) == 10000 && Pow10(2) == 100;
    PadLeftLength(d.year, 4);
    PadLeftLength(d.month, 2);
    PadLeftLength(d.day, 2);
  }

  /** Round trip: a valid date of a four-digit year is read back from its text. */
  lemma FormatThenParse(d: Date)
    requires ValidDate(d) && d.year <= 9999
    ensures ParseDate(FormatDate(d)) == Some(d)
  {
    var y, m, dd := PadLeft(d.year, 4), PadLeft(d.month, 2), PadLeft(d.day, 2);
    assert Pow10(4) == 10000 && Pow10(2) == 100;
    PadLeftLength(d.year, 4);
    PadLeftLength(d.month, 2);
    PadLeftLength(d.day, 2);
    PadLeftValue(d.year, 4);
    PadLeftValue(d.month, 2);
    PadLeftValue(d.day, 2);
    var s := FormatDate(d);
    assert s[..4] == y;
    assert s[5..7] == m;
    assert s[8..] == dd;
  }

  /** Round trip: text that parses is exactly the text of the parsed date, so
      the parser accepts canonical forms only. */
  lemma ParseThenFormat(s: string)
    requires ParseDate(s).Some?
    ensures FormatDate(ParseDate(s).value) == s
  {
    PadLeftCanonical(s[..4]);
    PadLeftCanonical(s[5..7]);
    PadLeftCanonical(s[8..]);
    assert s == s[..4] + "-" + s[5..7] + "-" + s[8..];
  }
}

=== FILE: digits.dfy ===
/**
 Decimal digit strings: rendering natural numbers (with and without zero
 padding, as `strftime` and `Float#to_s` print them) and reading them back.
 */
module Digits {

  predicate IsDigit(c: char) {
    '0' <= c <= '9'
  }

  predicate AllDigits(s: string) {
    forall i :: 0 <= i < |s| ==> IsDigit(s[i])
  }

  function DigitValue(c: char): (d: nat)
    requires IsDigit(c)
    ensures d < 10
  {
    c as int - '0' as int
  }

  function DigitChar(d: nat): (c: char)
    requires d < 10
    ensures IsDigit(c) && DigitValue(c) == d
  {
    ('0' as int + d) as char
  }

  function Pow10(n: nat): (p: nat)
    ensures 1 <= p
  {
    if n == 0 then 1 else 10 * Pow10(n - 1)
  }

  /** The number a string of decimal digits denotes (leading zeros allowed). */
  function StringToNat(s: string): (n: nat)
    requires AllDigits(s)
    ensures n < Pow10(|s|)
  {
    if |s| == 0 then 0 else 10 * StringToNat(s[..|s| - 1]) + DigitValue(s[|s| - 1])
  }

  /** Shortest decimal rendering of `n`: no leading zero, "0" for zero. */
  function NatToString(n: nat): (s: string)
    ensures 1 <= |s| && AllDigits(s)
    ensures StringToNat(s) == n
    ensures |s| == 1 || s[0] != '0'
  {
    if n < 10 then [DigitChar(n)]
    else
      var init := NatToString(n / 10);
      assert (init + [DigitChar(n % 10)])[..|init|] == init;
      init + [DigitChar(n % 10)]
  }

  function Zeros(k: nat): (s: string)
    ensures |s| == k && AllDigits(s)
    ensures forall i :: 0 <= i < k ==> s[i] == '0'
  {
    if k == 0 then [] else Zeros(k - 1) + ['0']
  }

  /** `n` in decimal, left-padded with zeros to at least `width` characters
      (the `%0<width>d` conversion). */
  function PadLeft(n: nat, width: nat): (s: string)
    ensures AllDigits(s)
  {
    var digits := NatToString(n);
    if |digits| < width then Zeros(width - |digits|) + digits else digits
  }

  lemma {:induction false} ZerosDenoteZero(k: nat)
    ensures StringToNat(Zeros(k)) == 0
  {
    if k > 0 {
      var z := Zeros(k - 1);
      var t := Zeros(k);
      assert t[..k - 1] == z;
      ZerosDenoteZero(k - 1);
      assert StringToNat(t) == 10 * StringToNat(z) + DigitValue(t[k - 1]);
    }
  }

  /** Leading zeros do not change the number a digit string denotes. */
  lemma {:induction false} LeadingZeros(k: nat, s: string)
    requires AllDigits(s)
    ensures AllDigits(Zeros(k) + s)
    ensures StringToNat(Zeros(k) + s) == StringToNat(s)
  {
    var t := Zeros(k) + s;
    if |s| == 0 {
      assert t == Zeros(k);
      ZerosDenoteZero(k);
    } else {
      assert t[..|t| - 1] == Zeros(k) + s[..|s| - 1];
      assert t[|t| - 1] == s[|s| - 1];
      LeadingZeros(k, s[..|s| - 1]);
    }
  }

  /** Padding reads back as the padded number. */
  lemma PadLeftValue(n: nat, width: nat)
    ensures StringToNat(PadLeft(n, width)) == n
  {
    var digits := NatToString(n);
    if |digits| < width {
      LeadingZeros(width - |digits|, digits);
    }
  }

  /** A number below 10^w has at most w digits. */
  lemma {:induction false} NatToStringLength(n: nat, w: nat)
    requires 1 <= w && n < Pow10(w)
    ensures |NatToString(n)| <= w
  {
    if n >= 10 {
      assert n / 10 < Pow10(w - 1);
      NatToStringLength(n / 10, w - 1);
    }
  }

  /** A number below 10^w padded to width w occupies exactly w characters. */
  lemma PadLeftLength(n: nat, w: nat)
    requires 1 <= w && n < Pow10(w)
    ensures |PadLeft(n, w)| == w
  {
    NatToStringLength(n, w);
  }

  /** A digit string denoting zero consists of zeros only. */
  lemma {:induction false} ZeroValueIsZeros(s: string)
    requires AllDigits(s) && StringToNat(s) == 0
    ensures s == Zeros(|s|)
  {
    if |s| > 0 {
      ZeroValueIsZeros(s[..|s| - 1]);
      assert s == s[..|s| - 1] + [s[|s| - 1]];
    }
  }

  /** Appending a digit to a nonzero number's rendering renders ten times it plus the digit. */
  lemma AppendDigit(v: nat, c: char)
    requires IsDigit(c) && v > 0
    ensures NatToString(10 * v + DigitValue(c)) == NatToString(v) + [c]
  {
    var n := 10 * v + DigitValue(c);
    assert n / 10 == v && n % 10 == DigitValue(c);
    assert DigitChar(DigitValue(c)) == c;
  }

  lemma PadAppend(v: nat, c: char, w: nat)
    requires IsDigit(c) && v > 0
    ensures PadLeft(10 * v + DigitValue(c), w + 1) == PadLeft(v, w) + [c]
  {
    AppendDigit(v, c);
    var dv := NatToString(v);
    if |dv| < w {
      assert (Zeros(w - |dv|) + dv) + [c] == Zeros(w - |dv|) + (dv + [c]);
    }
  }

  /** Reading a digit string and padding the number back to the string's own
      width reproduces the string: fixed-width fields are canonical. */
  lemma {:induction false} PadLeftCanonical(t: string)
    requires AllDigits(t) && 1 <= |t|
    ensures PadLeft(StringToNat(t), |t|) == t
  {
    var w := |t|;
    var init := t[..w - 1];
    var c := t[w - 1];
    assert t == init + [c];
    var v := StringToNat(init);
    assert StringToNat(t) == 10 * v + DigitValue(c);
    if v == 0 {
      ZeroValueIsZeros(init);
      assert DigitChar(DigitValue(c)) == c;
      assert NatToString(DigitValue(c)) == [c];
    } else {
      PadLeftCanonical(init);
      PadAppend(v, c, w - 1);
    }
  }
}

=== FILE: expense_store.dfy ===
/**
 The `expenses` table as a map from id to record, with the controller's
 create (`Expense.new` + `save`), lookup (`set_expense`), update and
 destroy (`destroy!`) actions. Field validations belong to the Expense model
 and are not part of this model.
 */
module ExpenseStore {
  import opened Wrappers
  import opened Dates
  import opened Records

  /** The attributes of a new expense (`expense_params` on create). */
  datatype Fields = Fields(amount: int, categoryId: nat, date: Date, description: string)

  /** The attributes an update request carries (`expense_params` on update):
      `expect` permits any subset of the four keys, and only those given are
      written. A request carrying none of them is rejected as a missing parameter. */
  datatype Changes = Changes(amount: Option<int>, categoryId: Option<nat>, date: Option<Date>, description: Option<string>)

  /** At least one permitted attribute is present, so `expect` finds the
      `expense` hash non-blank. */
  predicate Given(c: Changes) {
    c.amount.Some? || c.categoryId.Some? || c.date.Some? || c.description.Some?
  }

  /** `rows` holds every expense under its own id; `nextId` is the
      auto-increment counter, above every id ever handed out. */
  datatype Store = Store(rows: map<nat, Expense>, nextId: nat)

  /** `ActiveRecord::RecordNotFound` from `find`, or
      `ActionController::ParameterMissing` from `params.expect`. */
  datatype StoreError = RecordNotFound(id: nat) | ParameterMissing

  predicate Valid(s: Store) {
    forall id :: id in s.rows ==> id < s.nextId && s.rows[id].id == id
  }

  function WithFields(id: nat, f: Fields): Expense {
    Expense(id, f.amount, f.categoryId, f.date, f.description)
  }

  /** `Expense.new(expense_params).save`: a fresh id, every other row unchanged. */
  function Create(s: Store, f: Fields): (r: (Store, nat))
    requires Valid(s)
    ensures Valid(r.0)
    ensures r.1 !in s.rows && r.1 in r.0.rows
    ensures r.1 == s.nextId && r.0.nextId == s.nextId + 1
    ensures r.0.rows.Keys == s.rows.Keys + {r.1}
    ensures |r.0.rows| == |s.rows| + 1
    ensures forall id :: id in s.rows ==> r.0.rows[id] == s.rows[id]
  {
    var id := s.nextId;
    (Store(s.rows[id := WithFields(id, f)], id + 1), id)
  }

  /** `Expense.find(id)`: the record, or not-found. */
  function Find(s: Store, id: nat): (r: Result<Expense, StoreError>)
    requires Valid(s)
    ensures r.Success? <==> id in s.rows
    ensures r.Success? ==> r.value.id == id && r.value == s.rows[id]
    ensures r.Failure? ==> r.error == RecordNotFound(id)
  {
    if id in s.rows then Success(s.rows[id]) else Failure(RecordNotFound(id))
  }

  /** The stored record with the attributes a request carries written over it. */
  function Merge(e: Expense, c: Changes): Expense {
    Expense(e.id,
            if c.amount.Some? then c.amount.value else e.amount,
            if c.categoryId.Some? then c.categoryId.value else e.categoryId,
            if c.date.Some? then c.date.value else e.date,
            if c.description.Some? then c.description.value else e.description)
  }

  /** `set_expense` then `@expense.update(expense_params)`: the lookup runs
      first, so a missing id is reported even when no attribute is given. */
  function Update(s: Store, id: nat, c: Changes): (r: Result<Store, StoreError>)
    requires Valid(s)
    ensures r.Failure? <==> id !in s.rows || !Given(c)
    ensures id !in s.rows ==> r == Failure(RecordNotFound(id))
    ensures id in s.rows && !Given(c) ==> r == Failure(ParameterMissing)
    ensures r.Success? ==> Valid(r.value) && r.value.rows.Keys == s.rows.Keys && r.value.nextId == s.nextId
    ensures r.Success? ==> forall k :: k in s.rows && k != id ==> r.value.rows[k] == s.rows[k]
  {
    var e :- Find(s, id);
    if !Given(c) then Failure(ParameterMissing)
    else Success(Store(s.rows[id := Merge(e, c)], s.nextId))
  }

  /** `set_expense` then `@expense.destroy!`: exactly the targeted row goes. */
  function Destroy(s: Store, id: nat): (r: Result<Store, StoreError>)
    requires Valid(s)
    ensures r.Failure? <==> id !in s.rows
    ensures r.Failure? ==> r.error == RecordNotFound(id)
    ensures r.Success? ==> Valid(r.value)
    ensures r.Success? ==> r.value.rows.Keys == s.rows.Keys - {id}
    ensures r.Success? ==> |r.value.rows| == |s.rows| - 1
    ensures r.Success? ==> forall k :: k in r.value.rows ==> r.value.rows[k] == s.rows[k]
  {
    var e :- Find(s, id);
    var rows := s.rows - {id};
    assert rows.Keys == s.rows.Keys - {id};
    Success(Store(rows, s.nextId))
  }

  /** Creating an expense and reading it back by its id returns the fields given. */
  lemma CreateThenFind(s: Store, f: Fields)
    requires Valid(s)
    ensures var (s', id) := Create(s, f);
            Find(s', id) == Success(Expense(id, f.amount, f.categoryId, f.date, f.description))
  {
  }

  /** After an update the record read back keeps its id, carries every
      attribute the request gave, and keeps its old value for every other. */
  lemma UpdateThenFind(s: Store, id: nat, c: Changes)
    requires Valid(s) && id in s.rows && Given(c)
    ensures Update(s, id, c).Success?
    ensures var before := s.rows[id];
            var r := Find(Update(s, id, c).value, id);
            && r.Success? && r.value.id == id
            && r.value.amount == (if c.amount.Some? then c.amount.value else before.amount)
            && r.value.categoryId == (if c.categoryId.Some? then c.categoryId.value else before.categoryId)
            && r.value.date == (if c.date.Some? then c.date.value else before.date)
            && r.value.description == (if c.description.Some? then c.description.value else before.description)
  {
  }

  /** An update giving all four attributes stores exactly those; one giving
      none is rejected and the table keeps its rows. */
  lemma UpdateAllOrNothing(s: Store, id: nat, f: Fields)
    requires Valid(s) && id in s.rows
    ensures Find(Update(s, id, Changes(Some(f.amount), Some(f.categoryId), Some(f.date), Some(f.description))).value, id)
            == Success(WithFields(id, f))
    ensures Update(s, id, Changes(None, None, None, None)) == Failure(ParameterMissing)
  {
  }

  /** A destroyed expense can no longer be found, and destroying it again fails. */
  lemma DestroyThenFind(s: Store, id: nat)
    requires Valid(s) && id in s.rows
    ensures Destroy(s, id).Success?
    ensures Find(Destroy(s, id).value, id) == Failure(RecordNotFound(id))
    ensures Destroy(Destroy(s, id).value, id) == Failure(RecordNotFound(id))
  {
  }

  /** The rows with ids below `n`, in ascending id order. */
  function RowsBelow(s: Store, n: nat): (r: seq<Expense>)
    requires Valid(s)
    ensures forall e :: e in r <==> e.id < n && e.id in s.rows && s.rows[e.id] == e
    ensures forall i, j :: 0 <= i < j < |r| ==> r[i].id < r[j].id
  {
    if n == 0 then []
    else
      var init := RowsBelow(s, n - 1);
      if n - 1 in s.rows then init + [s.rows[n - 1]] else init
  }

  /** `Expense.all` in primary-key order: every stored expense exactly once. */
  function Rows(s: Store): (r: seq<Expense>)
    requires Valid(s)
    ensures forall e :: e in r <==> e.id in s.rows && s.rows[e.id] == e
    ensures forall i, j :: 0 <= i < j < |r| ==> r[i].id < r[j].id
  {
    RowsBelow(s, s.nextId)
  }
}

=== FILE: expenses_index.dfy ===
/**
 The `index` action end to end: read the date-range parameters, list the
 stored expenses in range newest first, and either build the chart series
 (HTML) or the CSV download (CSV format).
 */
module ExpensesIndex {
  import opened Wrappers
  import opened Dates
  import opened Records
  import opened RequestParams
  import opened ExpenseStore
  import opened DateFilter
  import opened Chart
  import opened CsvExport

  datatype IndexPage = IndexPage(expenses: seq<Expense>, chart: ChartData)

  datatype CsvFile = CsvFile(filename: string, rows: seq<Row>)

  datatype IndexError = BadParam(paramError: ParamError) | ExportFailed(exportError: ExportError)

  /** The date a request parameter bounds the range by, when there is one. */
  predicate Admits(p: Option<string>, d: Date, lower: bool) {
    !Present(p)
    || (ParseDate(p.value).Some?
        && if lower then DateLe(ParseDate(p.value).value, d) else DateLe(d, ParseDate(p.value).value))
  }

  /** The filtered collection for raw `start_date` / `end_date` parameters. */
  function Filtered(s: Store, startDate: Option<string>, endDate: Option<string>): (r: Result<seq<Expense>, IndexError>)
    requires Valid(s)
    ensures r.Failure? <==> ParseBound(startDate).Failure? || ParseBound(endDate).Failure?
    ensures r.Success? ==> NewestFirst(r.value)
    ensures r.Success? ==> forall e :: e in r.value <==>
              e.id in s.rows && s.rows[e.id] == e
              && Admits(startDate, e.date, true) && Admits(endDate, e.date, false)
    ensures r.Success? ==> forall e :: multiset(r.value)[e] <= 1
  {
    var lo :- ParseBound(startDate).MapFailure(e => BadParam(e));
    var hi :- ParseBound(endDate).MapFailure(e => BadParam(e));
    var rows := Rows(s);
    DistinctIds(rows);
    Success(FilterAndOrder(rows, lo, hi))
  }

  /** Rows listed by strictly increasing id occur at most once each. */
  lemma DistinctIds(rows: seq<Expense>)
    requires forall i, j :: 0 <= i < j < |rows| ==> rows[i].id < rows[j].id
    ensures forall e :: multiset(rows)[e] <= 1
  {
    if |rows| > 0 {
      assert rows == [rows[0]] + rows[1..];
      DistinctIds(rows[1..]);
      assert rows[0] !in rows[1..];
    }
  }

  /** GET /expenses: the list and the chart series built from it. */
  function Index(s: Store, cats: CategoryTable, startDate: Option<string>, endDate: Option<string>): (r: Result<IndexPage, IndexError>)
    requires Valid(s)
    ensures r.Failure? <==> ParseBound(startDate).Failure? || ParseBound(endDate).Failure?
    ensures r.Success? ==> r.value.expenses == Filtered(s, startDate, endDate).value
    ensures r.Success? ==> NewestFirst(r.value.expenses)
    ensures r.Success? ==> forall e :: e in r.value.expenses <==>
              e.id in s.rows && s.rows[e.id] == e
              && Admits(startDate, e.date, true) && Admits(endDate, e.date, false)
    ensures r.Success? ==> forall name :: name in r.value.chart.labels <==> Occurs(r.value.expenses, cats, name)
    ensures r.Success? ==> Sum(r.value.chart.countData) == ResolvedCount(r.value.expenses, cats)
    ensures r.Success? ==> Sum(r.value.chart.amountData) == ResolvedTotal(r.value.expenses, cats)
    ensures r.Success? ==> r.value.chart == PrepareChartData(r.value.expenses, cats)
    ensures r.Success? ==> var c := r.value.chart;
              && |c.labels| == |c.countData| == |c.amountData|
              && forall i :: 0 <= i < |c.labels| ==>
                   c.countData[i] == CountIn(r.value.expenses, cats, c.labels[i])
                   && c.amountData[i] == SumIn(r.value.expenses, cats, c.labels[i])
  {
    var list :- Filtered(s, startDate, endDate);
    Success(IndexPage(list, PrepareChartData(list, cats)))
  }

  /** `export_to_csv` on a listed collection: the CSV rows under the given name,
      or the first expense whose category does not resolve. */
  function ExportList(list: seq<Expense>, cats: CategoryTable, filename: string): (r: Result<CsvFile, ExportError>)
    ensures r.Success? <==> forall i :: 0 <= i < |list| ==> Resolves(list[i], cats)
    ensures r.Success? ==> r.value.filename == filename && r.value.rows == CsvRows(list, cats).value
    ensures r.Success? ==> |r.value.rows| == 1 + |list| && r.value.rows[0] == Header
    ensures r.Failure? ==> r.error == MissingCategory(list[FirstUnresolved(list, cats)].id)
  {
    match DataRows(list, cats)
    case Failure(err) => Failure(err)
    case Success(rows) => Success(CsvFile(filename, [Header] + rows))
  }

  /** GET /expenses.csv: the CSV rows of the list and the download's name. */
  function ExportCsv(s: Store, cats: CategoryTable, startDate: Option<string>, endDate: Option<string>, today: Date)
    : (r: Result<CsvFile, IndexError>)
    requires Valid(s)
    ensures Filtered(s, startDate, endDate).Failure? ==> r.Failure? && r.error.BadParam?
    ensures Filtered(s, startDate, endDate).Success? ==>
              var list := Filtered(s, startDate, endDate).value;
              && (r.Success? <==> forall i :: 0 <= i < |list| ==> Resolves(list[i], cats))
              && (r.Success? ==> r.value.rows == CsvRows(list, cats).value)
              && (r.Success? ==> |r.value.rows| == 1 + |list| && r.value.rows[0] == Header)
              && (r.Failure? ==> r.error == ExportFailed(MissingCategory(list[FirstUnresolved(list, cats)].id)))
    ensures r.Success? ==> r.value.filename == Filename(startDate, endDate, today)
  {
    var list :- Filtered(s, startDate, endDate);
    ExportList(list, cats, Filename(startDate, endDate, today)).MapFailure(e => ExportFailed(e))
  }

  /** Absent or empty-string bounds list every stored expense exactly once. */
  lemma NoFilterListsEverything(s: Store, startDate: Option<string>, endDate: Option<string>)
    requires Valid(s)
    requires startDate == None || startDate == Some("")
    requires endDate == None || endDate == Some("")
    ensures Filtered(s, startDate, endDate).Success?
    ensures multiset(Filtered(s, startDate, endDate).value) == multiset(Rows(s))
  {
    assert ParseBound(startDate) == Success(None);
    assert ParseBound(endDate) == Success(None);
    NoBoundsKeepsAll(Rows(s));
  }
}

=== FILE: records.dfy ===
/** The two persisted entities after the category backfill. */
module Records {
  import opened Wrappers
  import opened Dates

  /** A row of `categories`: the name is the label shown in charts and exports. */
  datatype Category = Category(id: nat, name: string, description: Option<string>)

  /** A row of `expenses`. `amount` is the decimal column in hundredths
      (12.50 is 1250); `categoryId` is the foreign key into `categories`. */
  datatype Expense = Expense(id: nat, amount: int, categoryId: nat, date: Date, description: string)

  /** The `categories` table keyed by id, as the controller reads it through
      `expense.category` (a primary-key lookup). The backfill migration works
      on the same table as a sequence in insertion order instead, because
      there the order of creation decides the ids and `find_by` returns the
      first match; `CategoryMigration.AsTable` converts one into the other. */
  type CategoryTable = map<nat, Category>

  /** `expense.category` resolves. */
  predicate Resolves(e: Expense, categories: CategoryTable) {
    e.categoryId in categories
  }

  /** `expense.category.name == name`, with the category resolving. */
  predicate InCategory(e: Expense, categories: CategoryTable, name: string) {
    e.categoryId in categories && categories[e.categoryId].name == name
  }
}

=== FILE: request_params.dfy ===
/**
 The optional `start_date` / `end_date` request parameters and Rails'
 `present?` test on them (app/controllers/expenses_controller.rb:9, :13).
 */
module RequestParams {
  import opened Wrappers
  import opened Dates

  /** Unicode White_Space, the class `[[:space:]]` that `String#blank?` matches. */
  predicate IsSpace(c: char) {
    var u := c as int;
    (0x09 <= u <= 0x0D) || u == 0x20 || u == 0x85 || u == 0xA0 || u == 0x1680
    || (0x2000 <= u <= 0x200A) || u == 0x2028 || u == 0x2029 || u == 0x202F
    || u == 0x205F || u == 0x3000
  }

  /** `String#blank?`: empty or whitespace only. */
  predicate Blank(s: string) {
    forall i :: 0 <= i < |s| ==> IsSpace(s[i])
  }

  /** `Object#present?` on a parameter: given (not nil) and not blank. */
  predicate Present(p: Option<string>) {
    p.Some? && !Blank(p.value)
  }

  datatype ParamError = MalformedDate(text: string)

  /** A date bound as the filter uses it: no restriction when the parameter is
      not present, the parsed date when it is canonical `YYYY-MM-DD`, and an
      error for any other present text. */
  function ParseBound(p: Option<string>): (r: Result<Option<Date>, ParamError>)
    ensures r == Success(None) <==> !Present(p)
    ensures r.Failure? <==> Present(p) && ParseDate(p.value).None?
    ensures r.Failure? ==> r.error == MalformedDate(p.value)
    ensures r.Success? && r.value.Some? ==>
              ValidDate(r.value.value) && p == Some(FormatDate(r.value.value))
  {
    if !Present(p) then Success(None)
    else match ParseDate(p.value)
      case Some(d) => ParseThenFormat(p.value); Success(Some(d))
      case None => Failure(MalformedDate(p.value))
  }

  /** Absent and empty-string parameters are both "no bound". */
  lemma AbsentOrEmptyIsNoBound(p: Option<string>)
    requires p == None || p == Some("")
    ensures ParseBound(p) == Success(None)
  {
  }
}

=== FILE: wrappers.dfy ===
/** Failure-compatible wrappers shared by every module of the model. */
module Wrappers {

  /** A value that may be absent: Ruby's `nil` or a present value. */
  datatype Option<+T> = None | Some(value: T)

  /** The outcome of an operation that can fail with an error value. */
  datatype Result<+R, +E> = Success(value: R) | Failure(error: E) {

    predicate IsFailure() {
      Failure?
    }

    function PropagateFailure<U>(): Result<U, E>
      requires Failure?
    {
      Failure(error)
    }

    function Extract(): R
      requires Success?
    {
      value
    }

    /** The same outcome with the error, if any, converted by `wrap`. */
    function MapFailure<NewE>(wrap: E -> NewE): Result<R, NewE> {
      match this
      case Success(v) => Success(v)
      case Failure(e) => Failure(wrap(e))
    }
  }
}
